=== FILE: README.md ===
# strangl.js geometry and lighting, in Dafny

This project models the numeric core of `strangl.js`, a small 3-D helper
library for a 2-D canvas. It covers:

- the point transforms of `Vertex`: orthographic and perspective projection,
  scaling, the three axis rotations and translation;
- `Line` and `Polygon`, which forward every transform to the points they own;
- the `Polygon` constructor, which copies coordinates and clamps the RGBA fill;
- the centroid accessors `getCentroid` and `getCentroidZ`;
- the Newell-style surface normal `getsurfaceNormal` and the back-face test
  `shouldRender`;
- the lighting pass: `applyLights`, `lightDiffuse`, `lightAmbient` and
  `addLightSource`;
- the `LightSource` constructor;
- the `centroidSort` comparator.

Coordinates are Dafny `real`s. `Math.cos`, `Math.sin` and `Math.sqrt` are the
fields of a `Libm` value the caller passes in. Lemmas that need their laws
state those laws at the one argument they use: `UnitCircleAt`, `ParityAt` and
`SqrtAt`. JavaScript's in-place mutation becomes pure functions that return
the updated value. A thrown exception becomes `Err(fault)` of
`Outcomes.Result`.

The modules follow the library's structure:

- `Outcomes`: `Option`, `Result` and the faults the library throws.
- `JsMath`: `Libm`, ToInt32 (the `| 0` and `Int32Array` conversion) and `Clamp`.
- `Vertices`: the point type and its transforms.
- `Lines`, `Polygons`: the two shapes, their constructors, transforms and
  centroids.
- `Lights`: `LightSource`.
- `Surface`: the surface normal and the back-face test.
- `Lighting`: the lighting pass.
- `DepthSort`: `centroidSort` and the painter's order it asks for.

Three places where the code does less than it appears to, all modelled as
written:

- The `LightSource` comment gives the intensities a "Scale of 0 to 1"
  (strangl.js:640). The constructor clamps each channel to [0, 1] and then
  overwrites it with the raw argument (strangl.js:647-659), so the stored
  intensities are exactly the arguments.
- `lightDiffuse` guards its factor with `I_diff < 0` and `I_diff > 1`
  (strangl.js:545-550). These compare an array with a number, are always
  false and never clamp. Only the final per-channel store clamps
  (strangl.js:553-565).
- `applyLights` computes the ambient term and drops it (strangl.js:508-509).
  It adds the diffuse terms without clamping the sum (strangl.js:513-519).

## Model

| member | source | states |
|---|---|---|
| JsMath.ToInt32 | strangl.js:553-555 | `x \| 0` on a finite number: the result is a signed 32-bit integer congruent to the truncated value mod 2^32, and equal to it when it is in range |
| Vertices.CopyCoords | strangl.js:373 | a vertex copied by `new Vertex(v.x, v.y, v.z)` has the same position and no render attributes |
| Vertices.Ortho | strangl.js:94-99 | `doOrtho` divides x and y by the cube size and leaves z alone |
| Vertices.Perspective | strangl.js:101-106 | `doPerspective` maps each coordinate c to cubesize + c·focalLen/((focalLen+z)·cubesize) |
| Vertices.Scale | strangl.js:108-111 | `scale` keeps the render attributes and moves the point along its ray from the origin: the result is collinear with the point, its squared distance is f² times the old one, and its dot product with the point is f times the squared distance |
| Vertices.RotX | strangl.js:113-122 | `rotX` leaves x and the render attributes unchanged and turns the (y, z) pair by the angle: the dot product with the old pair is cos·r², and the cross product is sin·r² |
| Vertices.RotY | strangl.js:124-133 | `rotY` leaves y and the render attributes unchanged and turns the (x, z) pair: dot product cos·r², cross product sin·r² |
| Vertices.RotZ | strangl.js:135-144 | the intended `rotZ` leaves z and the render attributes unchanged and turns the (x, y) pair: dot product cos·r², cross product sin·r² |
| Vertices.RotZAsWritten | strangl.js:139-140 | `rotZ` as written always fails, because it assigns to undeclared `x` and `y` in strict code |
| Vertices.Translate | strangl.js:146-149 | `translate` adds the offset to the position and touches nothing else |
| Vertices.TranslateInverse | strangl.js:146-149 | translating by d and then by -d restores the vertex exactly |
| Vertices.TranslateCompose | strangl.js:146-149 | two translations equal one translation by the summed offset |
| Vertices.ScaleInverse | strangl.js:108-111 | scaling by f ≠ 0 and then by 1/f restores the vertex |
| Vertices.RotXPreservesRadius | strangl.js:113-122 | when cos²+sin²=1, `rotX` keeps y²+z² |
| Vertices.RotYPreservesRadius | strangl.js:124-133 | when cos²+sin²=1, `rotY` keeps x²+z² |
| Vertices.RotZPreservesRadius | strangl.js:135-144 | when cos²+sin²=1, the intended `rotZ` keeps x²+y² |
| Vertices.RotXInverse | strangl.js:113-122 | with cos even, sin odd and cos²+sin²=1, rotating about x by θ and then by -θ restores the vertex |
| Vertices.RotYInverse | strangl.js:124-133 | the same round trip about y |
| Vertices.RotZInverse | strangl.js:135-144 | the same round trip about z, for the intended rotation |
| Vertices.RotZAsWrittenDiffers | strangl.js:135-144 | at a quarter turn, the written `rotZ` fails while the intended rotation sends (1,0,z) to (0,1,z) |
| Vertices.OrthoIsPlanarScale | strangl.js:94-99 | orthographic projection equals scaling x and y by 1/cubesize, with z unchanged |
| Vertices.CentroidZ | strangl.js:158 | a point's `getCentroidZ` is its depth |
| Vertices.PerspectiveKeepsDepthOrder | strangl.js:101-106 | with a positive cube size and focal length and both points in front of the viewer, perspective keeps the depth order |
| Lines.NewLine | strangl.js:214-219 | the constructor throws iff an endpoint is missing; otherwise it copies only the endpoint coordinates and keeps colour, style and name |
| Lines.Both | strangl.js:240-281 | a line transform applies the point transform to both endpoints and nothing else |
| Lines.Ortho | strangl.js:240-245 | `doOrtho` forwards to both endpoints |
| Lines.Perspective | strangl.js:247-251 | `doPerspective` forwards to both endpoints and keeps the stroke |
| Lines.Scale | strangl.js:253-257 | `scale` forwards to both endpoints |
| Lines.RotX | strangl.js:259-263 | `rotX` forwards to both endpoints |
| Lines.RotY | strangl.js:265-269 | `rotY` forwards to both endpoints |
| Lines.RotZ | strangl.js:271-275 | `rotZ` forwards to both endpoints |
| Lines.Translate | strangl.js:277-281 | `translate` forwards to both endpoints |
| Lines.CentroidZ | strangl.js:284-286 | the line's depth is the midpoint of its endpoint depths and lies between them |
| Lines.TranslateInverse | strangl.js:277-281 | translating a line and translating it back restores it |
| Lines.TranslateShiftsCentroidZ | strangl.js:277-286 | translating a line by dz shifts its depth by exactly dz |
| Lines.RotInverse | strangl.js:259-275 | rotating a line about any axis by θ and back restores it |
| Lines.ScaleInverse | strangl.js:253-257 | scaling a line by f and then by 1/f restores it |
| Lights.NewLightSource | strangl.js:646-670 | the constructor succeeds iff the tag is absent, "AMBIENT" or "DIFFUSE" and the vertex is present; an unknown tag throws first; a missing vertex then throws when `vertex.x` is read; an absent tag means "DIFFUSE"; intensities and position are the arguments |
| Lights.ClampedThenOverwritten | strangl.js:647-659 | the clamps to [0, 1] followed by the plain assignments leave every channel equal to its argument |
| Lights.IntensityNotClamped | strangl.js:648-659 | intensities 2 and -1 survive construction unchanged |
| Polygons.ClampFill | strangl.js:379-387 | the fill is clamped to RGB in [0, 255] and alpha in [0, 1], and in-range channels are unchanged |
| Polygons.CopyAll | strangl.js:371-374 | the copy loop yields one coordinate-only copy per element, in order, and fails iff an element is missing |
| Polygons.NewPolygon | strangl.js:368-397 | the constructor throws iff element 0 or a later element is missing, with a NullVertex fault for a missing later element; otherwise it keeps the count, order and coordinates of the vertices, clamps a given fill, leaves a missing fill missing, and defaults the attributes |
| Polygons.ConstructorClampsExample | strangl.js:378-387 | the fill [300, -10, 128, 2] becomes [255, 0, 128, 1] |
| Polygons.Lift | strangl.js:443-490 | the shared loop applies a point transform to each vertex independently and keeps count and order |
| Polygons.Ortho | strangl.js:443-448 | `doOrtho` transforms every vertex and leaves fill, stroke and attributes alone |
| Polygons.Perspective | strangl.js:450-455 | `doPerspective` does the same for perspective |
| Polygons.Scale | strangl.js:457-462 | `scale` does the same for scaling |
| Polygons.RotX | strangl.js:464-469 | `rotX` does the same for rotation about x |
| Polygons.RotY | strangl.js:471-476 | `rotY` does the same for rotation about y |
| Polygons.RotZ | strangl.js:478-483 | `rotZ` does the same for rotation about z |
| Polygons.Translate | strangl.js:485-490 | `translate` does the same for translation |
| Polygons.TranslateInverse | strangl.js:485-490 | translating a polygon and translating it back restores it |
| Polygons.ScaleInverse | strangl.js:457-462 | scaling a polygon by f and then by 1/f restores it |
| Polygons.RotInverse | strangl.js:464-483 | rotating a polygon about any axis by θ and back restores it |
| Polygons.CentroidZ | strangl.js:590-597 | `getCentroidZ` is the mean depth: times the vertex count it gives the sum of the depths; it lies between the depths of the shallowest and the deepest vertex |
| Polygons.Centroid | strangl.js:599-611 | `getCentroid` is the mean position: each coordinate times the vertex count gives the sum of that coordinate; its depth is exactly `getCentroidZ` |
| Polygons.SumPosZ | strangl.js:590-611 | the z accumulator of `getCentroid` equals the accumulator of `getCentroidZ` at every step |
| Polygons.CentroidZAgrees | strangl.js:590-611 | the third component of `getCentroid` equals `getCentroidZ` |
| Polygons.SumPosTranslate | strangl.js:599-606 | after k steps, the translated polygon's accumulator exceeds the original's by k times the offset |
| Polygons.CentroidTranslate | strangl.js:599-611 | translating a polygon moves its centroid, and its depth, by exactly the offset |
| Polygons.SumZAppend | strangl.js:590-594 | the depth sum of two vertex lists one after the other is the sum of their depth sums |
| Polygons.SumZRemove | strangl.js:590-594 | taking one vertex out of a list takes exactly its depth out of the depth sum |
| Polygons.SumZPermutation | strangl.js:590-594 | the depth sum does not depend on the order of the vertices |
| Polygons.CentroidZPermutation | strangl.js:590-597 | listing the same vertices in another order leaves `getCentroidZ` unchanged |
| Polygons.SumZBounds | strangl.js:590-594 | the sum of k depths in [lo, hi] lies in [k·lo, k·hi] |
| Polygons.CentroidZWithin | strangl.js:590-597 | the depth centroid lies between the nearest and the farthest vertex |
| Polygons.SquareCentroid | strangl.js:599-611 | the square (0,0), (2,0), (2,2), (0,2) has centroid (1,1,0) |
| Surface.RawNormal | strangl.js:613-621 | the raw Newell normal has x component twice the signed area of the ring projected on the y-z plane, y component 0, and z component twice the signed shoelace area of the x-y projection |
| Surface.NewellXIsShoelace | strangl.js:618 | the x sum (y_i − y_j)(z_i + z_j) around any nonempty ring equals the y-z shoelace sum of y_i·z_j − y_j·z_i |
| Surface.ShouldRender | strangl.js:412-414 | `shouldRender` holds iff the signed shoelace area of the ring is negative |
| Surface.SurfaceNormal | strangl.js:613-630 | the normal's raw vector is the Newell sum `RawNormal`, its magnitude is `Math.sqrt` of the raw vector's squared length, and its y component is 0; the unit vector exists iff the magnitude is nonzero; unit × magnitude = raw normal, componentwise |
| Surface.NormalMagnitude | strangl.js:622 | with a lawful square root, the magnitude is non-negative and squares to the sum of the squared components of the raw normal, so it is the Euclidean length |
| Surface.FlatRingYZ | strangl.js:618 | every partial y-z shoelace sum of a ring lying in the plane z = 0 is 0 |
| Surface.FlatNormal | strangl.js:616-621 | a polygon lying in the plane z = 0 has raw normal (0, 0, twice its signed area) |
| Surface.SquareRawNormal | strangl.js:616-621 | the square (0,0), (2,0), (2,2), (0,2) has raw normal (0, 0, 8) |
| Surface.NormalAlongZ | strangl.js:622-627 | a face whose raw normal is (0, 0, d) with d > 0, and whose length the square root reports as d, has magnitude d and unit normal (0, 0, 1) |
| Surface.SquareNormal | strangl.js:613-630 | when `Math.sqrt(64)` is 8, the square's normal is raw (0, 0, 8), magnitude 8, unit (0, 0, 1) |
| Surface.EdgeSumSplit | strangl.js:616-621 | an edge sum of a sum of terms is the sum of the edge sums |
| Surface.Telescope | strangl.js:616-619 | an edge sum of differences g(p[i]) − g(p[i+1]) telescopes |
| Surface.NewellYVanishes | strangl.js:619 | the sum of (z_i − z_j)(z_i + z_j) around any nonempty ring is 0 |
| Surface.NewellXShift | strangl.js:618 | translating the ring changes the partial x sum after k edges only by boundary terms in the first and the k-th vertex |
| Surface.NewellZShift | strangl.js:620 | the same for the partial z sum |
| Surface.NewellXTranslate | strangl.js:618 | the x sum of the normal is unchanged by translation |
| Surface.NewellZTranslate | strangl.js:620 | the z sum of the normal is unchanged by translation |
| Surface.NormalTranslateInvariant | strangl.js:412-414 | translating a polygon changes neither its normal nor whether it is drawn |
| Surface.NewellZIsShoelace | strangl.js:620 | the z sum (x_i − x_j)(y_i + y_j) around any nonempty ring equals the shoelace sum of the cross products x_i·y_j − x_j·y_i |
| Surface.CrossRotZ | strangl.js:135-144 | when cos²+sin²=1, rotating both points about z keeps their 2-D cross product |
| Surface.ShouldRenderRotZInvariant | strangl.js:412-414 | rotating a polygon about z changes neither its signed area nor whether it is drawn |
| Surface.UnitNormalIsUnit | strangl.js:622-627 | with a lawful square root, the unit normal has length 1 |
| Surface.SquareCulled | strangl.js:412-414 | the square (0,0), (2,0), (2,2), (0,2) has normal z = 8 and is not drawn |
| Surface.ReversedSquareDrawn | strangl.js:412-414 | the same square in reverse order has normal z = -8 and is drawn |
| Lighting.Store | strangl.js:552-565 | an `Int32Array` store followed by the range guards: the result is in [0, hi], and NaN stores 0 |
| Lighting.StoreClamps | strangl.js:552-565 | below 2^31 in magnitude the store acts as a clamp: values in [0, hi+1) are floored, larger ones saturate at hi, negative ones become 0 |
| Lighting.StoreWrapsPast32Bits | strangl.js:553 | a channel product of 2^32 + 5 wraps to 5 rather than saturating |
| Lighting.LightVector | strangl.js:531-535 | the light vector added to the centroid gives the light's position |
| Lighting.LambertCos | strangl.js:536-541 | the cosine is defined only when neither the light vector nor the surface normal has zero length |
| Lighting.LambertCosValue | strangl.js:531-541 | the cosine times the light-vector length and the normal magnitude is the dot product of the light vector with the raw normal, as Lambert's law has it |
| Lighting.LambertCosAlongZ | strangl.js:531-541 | against a face with unit normal (0, 0, 1), the cosine is the light vector's z component divided by its length |
| Lighting.LambertCosThreeFour | strangl.js:531-541 | a light vector (3, 0, 4) of length 5 against a face with unit normal (0, 0, 1) gives cosine 4/5 |
| Lighting.SquareLightVector | strangl.js:531-535 | a light at (4, 1, 4) is (3, 0, 4) away from the square's centroid (1, 1, 0) |
| Lighting.LitSquare | strangl.js:531-541 | a light at (4, 1, 4) meets the square (0,0,0)..(2,2,0) at cosine 4/5, when `Math.sqrt` gives 8 at 64 and 5 at 25: a lit face gets a real, nonzero cosine |
| Lighting.LambertCosDefined | strangl.js:536-541 | the cosine is defined exactly when neither the light vector nor the surface normal has zero length |
| Lighting.UnitDotBounded | strangl.js:541 | the dot product of two unit vectors lies in [-1, 1] |
| Lighting.LambertCosBounded | strangl.js:536-541 | with a lawful square root, the Lambert cosine lies in [-1, 1] |
| Lighting.LambertTranslateInvariant | strangl.js:531-541 | moving the polygon and the light together leaves the cosine unchanged |
| Lighting.DiffuseTerm | strangl.js:542-554 | the channel product is defined iff the cosine is, and is 0 when the cosine is 0 |
| Lighting.LightDiffuse | strangl.js:524-568 | `lightDiffuse` (corrected) throws iff the fill is missing; RGB is in [0, 255]; alpha is 0; with no defined cosine the result is black |
| Lighting.LightDiffuseChannels | strangl.js:524-565 | with a fill and a numeric cosine c, each colour channel of `lightDiffuse` is the store of fill × reflDiffuse × intensity × c |
| Lighting.LightDiffuseAsWritten | strangl.js:540 | `lightDiffuse` as written always throws, because it calls a method that does not exist |
| Lighting.LightDiffuseAsWrittenThrows | strangl.js:540 | on a polygon with a fill the written version throws while the corrected one succeeds |
| Lighting.DiffuseProductBounded | strangl.js:542-554 | with fill in [0, 255], reflectivity and intensity in [0, 1] and cosine in [-1, 1], the channel product lies in [-255, 255] |
| Lighting.DiffuseChannelExact | strangl.js:542-565 | for nominal inputs the product lies in [-255, 255] and the stored channel is its floor, or 0 when it is negative |
| Lighting.DiffuseClampsNeverFire | strangl.js:545-554 | the `I_diff` guards do not clamp: fill 100 with reflectivity 1, intensity 2 and cosine 0.75 stores 150, where a factor clamped to 1 would store 100 |
| Lighting.LightAmbient | strangl.js:570-587 | `lightAmbient` throws iff the fill is missing; RGB is in [0, 255] and alpha in [0, 1] |
| Lighting.AmbientChannel | strangl.js:572-584 | one ambient channel, `fillcolor[k] * lightVec[k]` stored and clamped, lies in [0, hi] |
| Lighting.AmbientChannelExact | strangl.js:572-584 | an ambient channel whose product lies in [0, 256) is that product rounded down |
| Lighting.LightAmbientChannels | strangl.js:570-587 | with a fill, each channel of `lightAmbient` is the ambient channel of the fill and the light's intensity |
| Lighting.AmbientExample | strangl.js:570-587 | fill [200, 100, 50, 1] under intensities [0.5, 0.5, 0.5, 1] gives [100, 50, 25, 1] |
| Lighting.DiffuseOnly | strangl.js:504-507 | the lights kept are all diffuse, and a list of diffuse lights is kept whole |
| Lighting.DiffuseOnlyKeeps | strangl.js:504-507 | a light is kept iff it is in the list and diffuse, and the kept lights are a sub-multiset of the list |
| Lighting.WithoutAmbient | strangl.js:508-509 | no kept light is ambient, and a list with no ambient light is kept whole |
| Lighting.WithoutAmbientKeeps | strangl.js:508-509 | a light is kept iff it is in the list and not ambient, and the kept lights are a sub-multiset of the list |
| Lighting.CollectEffects | strangl.js:502-512 | the first loop over the corrected `lightDiffuse` fails iff some light has an unknown type, or a light exists and the fill is missing; the first light's fault is the one reported; there is one effect per diffuse light, each with RGB in [0, 255] and alpha 0 |
| Lighting.EffectsAreDiffuseTerms | strangl.js:504-507 | effect j is the diffuse term of the j-th diffuse light |
| Lighting.SumEffects | strangl.js:513-519 | the sum of n valid effects has channels in [0, 255·n] and alpha 0 |
| Lighting.ApplyLights | strangl.js:501-521 | `applyLights` over the corrected `lightDiffuse` fails exactly as the first loop does; otherwise only the fill changes, to a present colour with alpha 0 and channels in [0, 255·(number of diffuse lights)] |
| Lighting.CollectEffectsAsWritten | strangl.js:502-512 | the first loop as written fails iff some light is not ambient, or a light exists and the fill is missing; a diffuse first light reports the missing method, an unknown one the unknown type; on success nothing is collected |
| Lighting.ApplyLightsAsWritten | strangl.js:501-521 | `applyLights` as written fails exactly as its first loop does, and on success only the fill changes, to [0, 0, 0, 0] |
| Lighting.ApplyLightsAsWrittenThrows | strangl.js:540 | with a fill and one diffuse light, `applyLights` as written throws the missing-method fault while the corrected pass succeeds |
| Lighting.AddLightSource | strangl.js:493-499 | the light joins the end of the list, and every other field of the polygon and of its attributes is unchanged |
| Lighting.NoLightsBlack | strangl.js:513 | with no lights the fill becomes [0, 0, 0, 0], even when there was none |
| Lighting.AmbientIgnored | strangl.js:508-509 | with a fill present, removing the ambient lights leaves the effects unchanged |
| Lighting.CollectEffectsLocal | strangl.js:524-587 | the effects depend only on the vertices, the fill and the diffuse reflectivity |
| Lighting.CollectEffectsStep | strangl.js:504-512 | with a fill, a known first light never fails and puts its diffuse term, or nothing for an ambient light, in front of the effects of the rest |
| Lighting.CollectEffectsAppend | strangl.js:504-512 | appending a known light appends its diffuse term, or nothing for an ambient light |
| Lighting.SumEffectsSnoc | strangl.js:514-519 | summing one more effect adds it channel by channel |
| Lighting.ApplyLightsFill | strangl.js:513-519 | on success the fill is the channel sum of the effects |
| Lighting.AddDiffuseLightAdds | strangl.js:493-521 | for the corrected `applyLights`: on a polygon with a fill and only known light types, adding a diffuse light adds its term to each channel of the fill |
| Lighting.AddAmbientLightNoEffect | strangl.js:493-521 | on a polygon with a fill and only known light types, adding an ambient light leaves the fill as it was |
| Lighting.DiffuseTranslateInvariant | strangl.js:524-568 | moving the polygon and the light together leaves the diffuse term unchanged |
| DepthSort.Translate | strangl.js:146-149 | translating any shape by dz shifts its depth by exactly dz |
| DepthSort.CentroidSort | strangl.js:679-681 | `centroidSort(a, b)` is negative iff a is deeper, zero iff they are equally deep, and positive iff b is deeper |
| DepthSort.CentroidSortSign | strangl.js:679-681 | `centroidSort(a, b) = -centroidSort(b, a)`; it is positive iff b is deeper, negative iff a is deeper, and zero iff they are equally deep |
| DepthSort.CentroidSortTransitive | strangl.js:679-681 | "a not after b" and "b not after c" give "a not after c" |
| DepthSort.CentroidSortTranslateInvariant | strangl.js:679-681 | translating every shape by the same offset leaves every comparison unchanged |
| DepthSort.NeighboursGiveFarthestFirst | strangl.js:676-681 | a sequence with no neighbour pair comparing positive is exactly one in painter's order, farthest first |
| DepthSort.ConsFarthestFirst | strangl.js:679-681 | putting a shape at least as deep as the head in front keeps painter's order |
| DepthSort.Insert | strangl.js:679-681 | inserting into a painter's-order sequence keeps the order and adds exactly the new shape, which goes in front of every shape no deeper than it |
| DepthSort.SortFarthestFirst | strangl.js:676-681 | a sort under the comparator yields a painter's-order permutation of its input |
| DepthSort.SortKeepsSorted | strangl.js:676-681 | a sequence already in painter's order is returned unchanged; in particular, equally deep neighbours in such a sequence are not swapped |

## Left out

- Rendering is not modelled: the `render` methods, the `createjs.Graphics` calls and the `instanceof` checks on the drawing target. They only drive an external drawing surface. The two `instanceof LightSource` checks on the lighting path (strangl.js:494, strangl.js:525-526) are not about drawing; they are covered by the last two lines below.
- The `createjs` presence guard and the `toString` methods are not modelled; they carry no logic.
- `copy()`, the JSON deep clone of `props` and the open `setPolyAttrib` bag are not modelled. The attributes are the fixed record {reflDiffuse, reflAmbient, lights, renderWire}, and the constructor takes it as given.
- Floating-point rounding is not modelled, and neither is the real behaviour of `Math.cos`, `Math.sin` and `Math.sqrt`. They are caller-supplied functions constrained pointwise by lemma preconditions.
- NaN and Infinity propagation in geometry is not modelled. `Vertices.Ortho` and the line and polygon projections require a nonzero cube size, and `Vertices.Perspective` requires `focalLen + z != 0`. The source divides anyway and produces Infinity or NaN.
- Lighting.LambertCos: a zero light-vector length or a zero normal magnitude gives `None`, which stands for the NaN the source computes. A NaN stores as 0. A square root that returns 0 for a nonzero argument is treated the same way. The converse is stated separately, by `Lighting.LambertCosDefined`.
- Polygons.NewPolygon: a fill with fewer than four channels cannot be expressed, because `Rgba` always has an alpha. The source accepts `[r, g, b]`: the alpha guards (strangl.js:382, 386) never fire, and the alpha is stored as `undefined` without clamping (strangl.js:387). `render` later treats it as 1 (strangl.js:425-426).
- Mutation of the caller's `colorRGBA` array by the constructor's clamps is not modelled; it is aliasing detail.
- `Vertices.RotZAsWritten` models only the failure. The directive at strangl.js:26 makes the whole library strict, so the assignments at strangl.js:139-140 throw, unless the page already has global `x` and `y` bindings. In that case the rotation would work and overwrite those globals; that case is not modelled.
- `reflAmbient` is carried in the attributes but never read, as in the source.
- Lighting.ApplyLights: the bounds cover RGB only up to 255 per diffuse light, because the source does not clamp the sum.
- DepthSort.SortFarthestFirst: stability on arbitrary input is not stated. `SortKeepsSorted` states only that input already in painter's order comes back unchanged.
- `addLightSource`'s rejection of non-`LightSource` arguments is not modelled; every `LightSource` value is one.
- Lighting.LightDiffuse: the `instanceof LightSource` check at strangl.js:525-526 is not modelled, and every `LightSource` value passes it. In the source, lights that reach a polygon through `props` are plain objects: the constructor deep-clones `props` through JSON (strangl.js:396), and `copy()` passes its attributes through that constructor again (strangl.js:399-401). Such lights fail the check, so `applyLights` would throw "Expected LightSource" on the first DIFFUSE one. Only lights added afterwards with `addLightSource` keep their prototype.

## Findings

| source | as written | input that shows it | evidently intended | confidence | as-written member | corrected member |
|---|---|---|---|---|---|---|
| strangl.js:139-140 | `rotZ` assigns to undeclared `x` and `y` inside a `"use strict"` scope, so every call throws a ReferenceError | any vertex, e.g. (1, 0, z) at a quarter turn | `let x = …; let y = …`, a rotation in the x-y plane | high; not executed | Vertices.RotZAsWritten (shown by Vertices.RotZAsWrittenDiffers) | Vertices.RotZ |
| strangl.js:540 | `lightDiffuse` calls `this.getUnitVector()`, which no prototype defines, so every diffuse light throws a TypeError | any polygon with a fill and one DIFFUSE light | `this.getsurfaceNormal().unitVector` | high; not executed | Lighting.LightDiffuseAsWritten (shown by Lighting.LightDiffuseAsWrittenThrows) | Lighting.LightDiffuse |
| strangl.js:501-521 | because of the fault at line 540, `applyLights` gets through only when every light is ambient, and then the fill is [0, 0, 0, 0] | a polygon with a fill and one DIFFUSE light | `applyLights` over the intended `lightDiffuse`, summing the diffuse terms | high; not executed | Lighting.ApplyLightsAsWritten (shown by Lighting.ApplyLightsAsWrittenThrows; loop in Lighting.CollectEffectsAsWritten) | Lighting.ApplyLights (loop in Lighting.CollectEffects) |

=== FILE: depth_sort.dfy ===
/** `centroidSort`, the comparator a caller hands to `Array.prototype.sort`
    to order render objects by depth, and the order it induces. */
module DepthSort {
  import opened Vertices
  import Lines
  import Polygons

  /** Anything with a `getCentroidZ` accessor. */
  datatype Shape =
    | Point(v: Vertex)
    | Segment(l: Lines.Line)
    | Face(p: Polygons.Polygon)

  /** Dispatch to the shape's own `getCentroidZ`. */
  function Depth(s: Shape): real {
    match s
    case Point(v) => Vertices.CentroidZ(v)
    case Segment(l) => Lines.CentroidZ(l)
    case Face(p) => Polygons.CentroidZ(p)
  }

  /** Dispatch to the shape's own `translate`. */
  function Translate(s: Shape, dx: real, dy: real, dz: real): (r: Shape)
    ensures r.Point? == s.Point? && r.Segment? == s.Segment? && r.Face? == s.Face?
    ensures Depth(r) == Depth(s) + dz
  {
    match s
    case Point(v) => Point(Vertices.Translate(v, dx, dy, dz))
    case Segment(l) =>
      Lines.TranslateShiftsCentroidZ(l, dx, dy, dz);
      Segment(Lines.Translate(l, dx, dy, dz))
    case Face(p) =>
      Polygons.CentroidTranslate(p, dx, dy, dz);
      Face(Polygons.Translate(p, dx, dy, dz))
  }

  /** `centroidSort(a, b)`: negative when `a` should come first, which is
      when `a` lies deeper; zero for equally deep shapes. */
  function CentroidSort(a: Shape, b: Shape): (r: real)
    ensures r < 0.0 <==> Depth(a) > Depth(b)
    ensures r == 0.0 <==> Depth(a) == Depth(b)
    ensures r > 0.0 <==> Depth(b) > Depth(a)
  {
    Depth(b) - Depth(a)
  }

  /** The comparator is antisymmetric, and it sends `a` first exactly when
      `a` lies deeper than `b`. */
  lemma CentroidSortSign(a: Shape, b: Shape)
    ensures CentroidSort(a, b) == -CentroidSort(b, a)
    ensures CentroidSort(a, b) > 0.0 <==> Depth(b) > Depth(a)
    ensures CentroidSort(a, b) < 0.0 <==> Depth(a) > Depth(b)
    ensures CentroidSort(a, b) == 0.0 <==> Depth(a) == Depth(b)
  {
  }

  /** "Not after" is transitive, so the comparator is a consistent order. */
  lemma CentroidSortTransitive(a: Shape, b: Shape, c: Shape)
    requires CentroidSort(a, b) <= 0.0 && CentroidSort(b, c) <= 0.0
    ensures CentroidSort(a, c) <= 0.0
  {
  }

  /** Moving every shape by the same offset leaves every comparison as it was. */
  lemma CentroidSortTranslateInvariant(a: Shape, b: Shape, dx: real, dy: real, dz: real)
    ensures CentroidSort(Translate(a, dx, dy, dz), Translate(b, dx, dy, dz)) == CentroidSort(a, b)
  {
  }

  /** What a sort with this comparator guarantees locally: no neighbour pair
      compares positive. */
  predicate NeighboursInOrder(s: seq<Shape>) {
    forall i :: 0 < i < |s| ==> CentroidSort(s[i - 1], s[i]) <= 0.0
  }

  /** Painter's order: every shape is at least as deep as every later one. */
  predicate FarthestFirst(s: seq<Shape>) {
    forall i, j :: 0 <= i < j < |s| ==> Depth(s[j]) <= Depth(s[i])
  }

  /** A sequence the comparator accepts pair by pair is in painter's order,
      and conversely. */
  lemma {:induction false} NeighboursGiveFarthestFirst(s: seq<Shape>)
    ensures NeighboursInOrder(s) <==> FarthestFirst(s)
    decreases |s|
  {
    if |s| > 1 {
      var t := s[..|s| - 1];
      NeighboursGiveFarthestFirst(t);
      if NeighboursInOrder(s) {
        assert NeighboursInOrder(t) by {
          forall i | 0 < i < |t| ensures CentroidSort(t[i - 1], t[i]) <= 0.0 {
            assert t[i - 1] == s[i - 1] && t[i] == s[i];
          }
        }
        forall i, j | 0 <= i < j < |s| ensures Depth(s[j]) <= Depth(s[i]) {
          if j < |s| - 1 {
            assert t[i] == s[i] && t[j] == s[j];
          } else {
            assert CentroidSort(s[j - 1], s[j]) <= 0.0;
            if i < j - 1 {
              assert t[i] == s[i] && t[j - 1] == s[j - 1];
            }
          }
        }
      }
    }
  }

  /** Putting a shape in front of a painter's-order sequence keeps the order
      when it is at least as deep as the old head. */
  lemma ConsFarthestFirst(a: Shape, rest: seq<Shape>)
    requires FarthestFirst(rest)
    requires |rest| > 0 ==> Depth(rest[0]) <= Depth(a)
    ensures FarthestFirst([a] + rest)
  {
    var r := [a] + rest;
    forall i, j | 0 <= i < j < |r| ensures Depth(r[j]) <= Depth(r[i]) {
      assert r[j] == rest[j - 1];
      if i > 0 {
        assert r[i] == rest[i - 1];
      } else if j > 1 {
        assert Depth(rest[j - 1]) <= Depth(rest[0]);
      }
    }
  }

  /** Places `x` before the first shape no deeper than it, so `x` goes ahead
      of the shapes exactly as deep as it. */
  function Insert(x: Shape, s: seq<Shape>): (r: seq<Shape>)
    requires FarthestFirst(s)
    ensures FarthestFirst(r)
    ensures multiset(r) == multiset(s) + multiset{x}
    ensures |r| == |s| + 1
    ensures r[0] == (if |s| > 0 && Depth(s[0]) > Depth(x) then s[0] else x)
    decreases |s|
  {
    if |s| == 0 then [x]
    else if Depth(s[0]) > Depth(x) then
      assert s == [s[0]] + s[1..];
      var rest := Insert(x, s[1..]);
      ConsFarthestFirst(s[0], rest);
      [s[0]] + rest
    else
      ConsFarthestFirst(x, s);
      [x] + s
  }

  /** A depth sort: the order `centroidSort` asks the array sort for. Each
      shape is inserted ahead of the equally deep shapes that follow it in
      the input; `SortKeepsSorted` shows that input already in painter's
      order comes back unchanged. */
  function SortFarthestFirst(s: seq<Shape>): (r: seq<Shape>)
    ensures FarthestFirst(r)
    ensures multiset(r) == multiset(s)
    decreases |s|
  {
    if |s| == 0 then []
    else
      assert s == [s[0]] + s[1..];
      Insert(s[0], SortFarthestFirst(s[1..]))
  }

  /** A shape at least as deep as the head of a painter's-order sequence
      is inserted in front of it. */
  lemma InsertAtFront(x: Shape, s: seq<Shape>)
    requires FarthestFirst(s)
    requires |s| > 0 ==> Depth(s[0]) <= Depth(x)
    ensures Insert(x, s) == [x] + s
  {
  }

  /** A sequence already in painter's order comes back unchanged: in
      particular equally deep shapes are never swapped. */
  lemma {:induction false} SortKeepsSorted(s: seq<Shape>)
    requires FarthestFirst(s)
    ensures SortFarthestFirst(s) == s
    decreases |s|
  {
    if |s| > 0 {
      var t := s[1..];
      assert FarthestFirst(t) by {
        forall i, j | 0 <= i < j < |t| ensures Depth(t[j]) <= Depth(t[i]) {
          assert t[i] == s[i + 1] && t[j] == s[j + 1];
        }
      }
      SortKeepsSorted(t);
      assert SortFarthestFirst(s) == Insert(s[0], SortFarthestFirst(t));
      InsertAtFront(s[0], t);
      assert s == [s[0]] + t;
    }
  }
}

=== FILE: jsmath.dfy ===
/** The numeric primitives the library borrows from JavaScript: the `Math`
    functions it calls, the `| 0` / Int32Array conversion, and range clamps. */
module JsMath {

  /** `Math.cos`, `Math.sin` and `Math.sqrt`, supplied by the caller. Nothing is
      assumed about them except what a lemma states as a precondition. */
  datatype Libm = Libm(cos: real -> real, sin: real -> real, sqrt: real -> real)

  /** The Pythagorean identity at one angle. */
  predicate UnitCircleAt(m: Libm, angle: real) {
    m.cos(angle) * m.cos(angle) + m.sin(angle) * m.sin(angle) == 1.0
  }

  /** Cosine is even and sine is odd at one angle. */
  predicate ParityAt(m: Libm, angle: real) {
    m.cos(-angle) == m.cos(angle) && m.sin(-angle) == -m.sin(angle)
  }

  /** `Math.sqrt` returns the non-negative root at one argument. */
  predicate SqrtAt(m: Libm, x: real) {
    m.sqrt(x) >= 0.0 && m.sqrt(x) * m.sqrt(x) == x
  }

  const TWO_31: int := 0x8000_0000
  const TWO_32: int := 0x1_0000_0000

  /** Rounding toward zero, the first step of ToInt32. */
  function Trunc(x: real): (r: int)
    ensures x >= 0.0 ==> r as real <= x < r as real + 1.0
    ensures x < 0.0 ==> r as real - 1.0 < x <= r as real
  {
    if x >= 0.0 then x.Floor else -((-x).Floor)
  }

  /** ECMAScript ToInt32 on a finite number: truncate, then wrap into the
      signed 32-bit range. This is what `v | 0` and an Int32Array store do. */
  function ToInt32(x: real): (r: int)
    ensures -TWO_31 <= r < TWO_31
    ensures (r - Trunc(x)) % TWO_32 == 0
    ensures -TWO_31 <= Trunc(x) < TWO_31 ==> r == Trunc(x)
  {
    var w := Trunc(x) % TWO_32;
    if w >= TWO_31 then w - TWO_32 else w
  }

  /** The pair of `if (v > hi) v = hi; if (v < lo) v = lo;` guards. */
  function Clamp(x: real, lo: real, hi: real): (r: real)
    requires lo <= hi
    ensures lo <= r <= hi
    ensures lo <= x <= hi ==> r == x
    ensures x < lo ==> r == lo
    ensures x > hi ==> r == hi
  {
    if x > hi then hi else if x < lo then lo else x
  }
}

=== FILE: light_source.dfy ===
/** Light sources: a position, four channel intensities and a type tag. */
module Lights {
  import opened Outcomes
  import opened Vertices

  const DIFFUSE: string := "DIFFUSE"
  const AMBIENT: string := "AMBIENT"

  /** The channel intensities of a light (`lightVec`), in r, g, b, a order. */
  datatype Intensity = Intensity(r: real, g: real, b: real, a: real)

  /** A light as the lighting code sees it. The tag is a free string because
      `applyLights` reads whatever `type` the object carries when it runs. */
  datatype LightSource = LightSource(kind: string, vec: Intensity, pos: Vec3)

  predicate KnownKind(kind: string) {
    kind == DIFFUSE || kind == AMBIENT
  }

  /** The `LightSource` constructor. A missing tag means "DIFFUSE"; any tag
      other than the two known ones throws. The position is read from
      `vertex` after the tag check, so a missing vertex throws only when the
      tag is accepted. The clamps the constructor runs on the channels are
      overwritten by the raw arguments right after, so the stored intensities
      are exactly the arguments. */
  function NewLightSource(kind: Option<string>, lRed: real, lGreen: real, lBlue: real, lAlpha: real,
                          at: Option<Vertex>): (r: Result<LightSource>)
    ensures r.Ok? <==> (kind.None? || KnownKind(kind.value)) && at.Some?
    ensures kind.Some? && !KnownKind(kind.value) ==> r == Err(UnknownLightType)
    ensures (kind.None? || KnownKind(kind.value)) && at.None? ==> r == Err(NullVertex)
    ensures r.Ok? ==> KnownKind(r.value.kind)
    ensures r.Ok? ==> (r.value.kind == DIFFUSE <==> kind.None? || kind.value == DIFFUSE)
    ensures r.Ok? ==> r.value.vec == Intensity(lRed, lGreen, lBlue, lAlpha)
    ensures r.Ok? ==> r.value.pos == at.value.Pos()
  {
    var vec := ClampedThenOverwritten(lRed, lGreen, lBlue, lAlpha);
    var tag: Result<string> :=
      match kind
      case None => Ok(DIFFUSE)
      case Some(t) => if t == AMBIENT || t == DIFFUSE then Ok(t) else Err(UnknownLightType);
    match tag
    case Err(e) => Err(e)
    case Ok(t) =>
      match at
      case None => Err(NullVertex)
      case Some(v) => Ok(LightSource(t, vec, v.Pos()))
  }

  /** The channel set-up of the constructor as written: each guard may set a
      channel to 0 or 1, and then every channel is assigned its argument. */
  function ClampedThenOverwritten(lRed: real, lGreen: real, lBlue: real, lAlpha: real): (r: Intensity)
    ensures r == Intensity(lRed, lGreen, lBlue, lAlpha)
  {
    var v0 := Intensity(0.0, 0.0, 0.0, 0.0);   // a fresh Float64Array(4)
    var v1 := if lRed < 0.0 then v0.(r := 0.0) else v0;
    var v2 := if lGreen < 0.0 then v1.(g := 0.0) else v1;
    var v3 := if lBlue < 0.0 then v2.(b := 0.0) else v2;
    var v4 := if lAlpha < 0.0 then v3.(a := 0.0) else v3;
    var v5 := if lRed > 1.0 then v4.(r := 1.0) else v4;
    var v6 := if lGreen > 1.0 then v5.(g := 1.0) else v5;
    var v7 := if lBlue > 1.0 then v6.(b := 1.0) else v6;
    var v8 := if lAlpha > 1.0 then v7.(a := 1.0) else v7;
    v8.(r := lRed).(g := lGreen).(b := lBlue).(a := lAlpha)
  }

  /** Intensities outside [0, 1] survive construction: a light built with a
      red channel of 2 stores 2. */
  lemma IntensityNotClamped(at: Vertex)
    ensures NewLightSource(None, 2.0, -1.0, 0.5, 1.0, Some(at)).Ok?
    ensures NewLightSource(None, 2.0, -1.0, 0.5, 1.0, Some(at)).value.vec.r == 2.0
    ensures NewLightSource(None, 2.0, -1.0, 0.5, 1.0, Some(at)).value.vec.g == -1.0
  {
  }
}

=== FILE: lighting.dfy ===
/** The lighting pass: the diffuse (Lambert) and ambient terms of one light,
    their collection over a polygon's lights and the sum that becomes the new
    fill colour. */
module Lighting {
  import opened Outcomes
  import opened JsMath
  import opened Vertices
  import opened Lights
  import opened Polygons
  import opened Surface

  /** The `Int32Array(4)` a light term returns, in r, g, b, a order. */
  datatype Pixel = Pixel(r: int, g: int, b: int, a: int)

  /** One channel of a light term: the value is stored through `| 0` (or the
      Int32Array itself), then the `> hi` and `< 0` guards run. A NaN value,
      written `None`, stores 0. */
  function Store(x: Option<real>, hi: int): (r: int)
    requires 0 <= hi <= 255
    ensures 0 <= r <= hi
    ensures x.None? ==> r == 0
  {
    var i := if x.None? then 0 else ToInt32(x.value);
    if i > hi then hi else if i < 0 then 0 else i
  }

  /** Below 2^31 in magnitude the store acts as a clamp: values in range are
      rounded down, larger ones saturate at hi and negative ones become 0. */
  lemma StoreClamps(x: real, hi: int)
    requires 0 <= hi <= 255
    ensures 0.0 <= x < (hi + 1) as real ==> Store(Some(x), hi) == x.Floor
    ensures (hi + 1) as real <= x < TWO_31 as real ==> Store(Some(x), hi) == hi
    ensures -(TWO_31 as real) < x < 1.0 ==> Store(Some(x), hi) == 0
  {
  }

  /** The 32-bit store wraps rather than saturates: a channel worth 2^32 + 5
      comes out as 5, not 255. */
  lemma StoreWrapsPast32Bits()
    ensures Store(Some(4294967301.0), 255) == 5
  {
    assert Trunc(4294967301.0) == 4294967301;
  }

  // ---------------------------------------------------------------------
  // The Lambert cosine
  // ---------------------------------------------------------------------

  /** From the polygon's centroid to the light. */
  function LightVector(p: Polygon, light: LightSource): (r: Vec3)
    ensures r.Plus(Centroid(p)) == light.pos
  {
    light.pos.Minus(Centroid(p))
  }

  /** The dot product of the unit light vector with the unit surface normal.
      It is NaN (`None`) when the light sits on the centroid (0 / 0) or the
      normal has zero magnitude. */
  function LambertCos(p: Polygon, light: LightSource, m: Libm): (r: Option<real>)
    ensures r.Some? ==> Length(m, LightVector(p, light)) != 0.0 && SurfaceNormal(p, m).unit.Some?
  {
    var lv := LightVector(p, light);
    var mag := Length(m, lv);
    var n := SurfaceNormal(p, m);
    if mag == 0.0 || n.unit.None? then None
    else Some(Vec3(lv.x / mag, lv.y / mag, lv.z / mag).Dot(n.unit.value))
  }

  /** The cosine is NaN exactly in the two degenerate cases. */
  lemma LambertCosDefined(p: Polygon, light: LightSource, m: Libm)
    ensures LambertCos(p, light, m).Some?
            <==> Length(m, LightVector(p, light)) != 0.0 && SurfaceNormal(p, m).unit.Some?
  {
  }

  /** Dividing two factors by g and h and multiplying by g h restores their
      product. */
  lemma DivProduct(a: real, g: real, b: real, h: real)
    requires g != 0.0 && h != 0.0
    ensures (a / g) * (b / h) * (g * h) == a * b
  {
    var q, s := a / g, b / h;
    assert q * g == a && s * h == b;
    assert q * s * (g * h) == (q * g) * (s * h);
  }

  /** The dot product of u / g and v / h, times g h, is the dot product of
      u and v. */
  lemma DotScaled(u: Vec3, v: Vec3, g: real, h: real)
    requires g != 0.0 && h != 0.0
    ensures Vec3(u.x / g, u.y / g, u.z / g).Dot(Vec3(v.x / h, v.y / h, v.z / h)) * (g * h) == u.Dot(v)
  {
    DivProduct(u.x, g, v.x, h);
    DivProduct(u.y, g, v.y, h);
    DivProduct(u.z, g, v.z, h);
    var k := g * h;
    var px, py, pz := (u.x / g) * (v.x / h), (u.y / g) * (v.y / h), (u.z / g) * (v.z / h);
    assert (px + py + pz) * k == px * k + py * k + pz * k;
  }

  /** A cosine computed as the dot product of u / g and v / h, times g h,
      is the dot product of u and v. */
  lemma CosTimesLengths(c: real, u: Vec3, v: Vec3, g: real, h: real)
    requires g != 0.0 && h != 0.0
    requires c == Vec3(u.x / g, u.y / g, u.z / g).Dot(Vec3(v.x / h, v.y / h, v.z / h))
    ensures c * (g * h) == u.Dot(v)
  {
    DotScaled(u, v, g, h);
  }

  /** The cosine is the one of Lambert's law: times the length of the light
      vector and the magnitude of the normal, it is the dot product of the
      light vector with the raw normal. */
  lemma LambertCosValue(p: Polygon, light: LightSource, m: Libm, c: real, g: real, h: real)
    requires LambertCos(p, light, m) == Some(c)
    requires g == Length(m, LightVector(p, light)) && h == SurfaceNormal(p, m).magnitude
    ensures c * (g * h) == LightVector(p, light).Dot(RawNormal(p))
  {
    assert SurfaceNormal(p, m).raw == RawNormal(p);
    CosTimesLengths(c, LightVector(p, light), RawNormal(p), g, h);
  }

  /** A face whose unit normal is (0, 0, 1) receives the light at the cosine
      of the light vector's z component over its length. */
  lemma LambertCosAlongZ(p: Polygon, light: LightSource, m: Libm, lv: Vec3, g: real)
    requires SurfaceNormal(p, m).unit == Some(Vec3(0.0, 0.0, 1.0))
    requires LightVector(p, light) == lv && Length(m, lv) == g && g != 0.0
    ensures LambertCos(p, light, m) == Some(lv.z / g)
  {
  }

  /** A light (3, 0, 4) away from a face that faces along the z axis, 5 units
      away, meets it at cosine 4/5. */
  lemma LambertCosThreeFour(p: Polygon, light: LightSource, m: Libm)
    requires SurfaceNormal(p, m).unit == Some(Vec3(0.0, 0.0, 1.0))
    requires LightVector(p, light) == Vec3(3.0, 0.0, 4.0)
    requires Length(m, Vec3(3.0, 0.0, 4.0)) == 5.0
    ensures LambertCos(p, light, m) == Some(0.8)
  {
    LambertCosAlongZ(p, light, m, Vec3(3.0, 0.0, 4.0), 5.0);
  }

  /** When the square root of 25 is 5, (3, 0, 4) has length 5. */
  lemma LengthOfThreeFour(m: Libm)
    requires m.sqrt(25.0) == 5.0
    ensures Length(m, Vec3(3.0, 0.0, 4.0)) == 5.0
  {
    assert Length(m, Vec3(3.0, 0.0, 4.0)) == m.sqrt(25.0);
  }

  /** The square faces along the z axis. */
  lemma SquareFacesZ(p: Polygon, m: Libm)
    requires p.verts == Square() && m.sqrt(64.0) == 8.0
    ensures SurfaceNormal(p, m).unit == Some(Vec3(0.0, 0.0, 1.0))
  {
    SquareNormal(p, m);
  }

  /** A light at (4, 1, 4) sits (3, 0, 4) away from the square's centroid. */
  lemma SquareLightVector(p: Polygon, light: LightSource)
    requires p.verts == Square() && light.pos == Vec3(4.0, 1.0, 4.0)
    ensures LightVector(p, light) == Vec3(3.0, 0.0, 4.0)
  {
    SquareCentroid(p);
  }

  /** That light shines on the square (0,0,0)..(2,2,0) at an angle whose
      cosine is 4/5, when the square root returns the exact roots 8 and 5. */
  lemma LitSquare(p: Polygon, light: LightSource, m: Libm)
    requires p.verts == Square() && light.pos == Vec3(4.0, 1.0, 4.0)
    requires m.sqrt(64.0) == 8.0 && m.sqrt(25.0) == 5.0
    ensures LambertCos(p, light, m) == Some(0.8)
  {
    SquareFacesZ(p, m);
    SquareLightVector(p, light);
    LengthOfThreeFour(m);
    LambertCosThreeFour(p, light, m);
  }

  /** A non-zero number squares to a positive one. */
  lemma SquarePos(a: real)
    requires a != 0.0
    ensures a * a > 0.0
  {
    if a > 0.0 {
      PosMul(a, a);
    } else {
      PosMul(-a, -a);
      assert a * a == (-a) * (-a);
    }
  }

  lemma SquareNonNeg(a: real)
    ensures a * a >= 0.0
  {
    if a != 0.0 {
      SquarePos(a);
    }
  }

  lemma SumSquaresNonNeg(x: real, y: real, z: real)
    ensures 0.0 <= x * x + y * y + z * z
  {
    SquareNonNeg(x);
    SquareNonNeg(y);
    SquareNonNeg(z);
  }

  lemma SquareOfDifference(a: real, b: real)
    ensures (a - b) * (a - b) == a * a - 2.0 * (a * b) + b * b
    ensures (a + b) * (a + b) == a * a + 2.0 * (a * b) + b * b
  {
  }

  /** Two unit vectors have a dot product in [-1, 1]: expand |a - b|^2 and
      |a + b|^2, both non-negative. */
  lemma UnitDotBounded(a: Vec3, b: Vec3)
    requires IsUnit(a) && IsUnit(b)
    ensures -1.0 <= a.Dot(b) <= 1.0
  {
    SquareOfDifference(a.x, b.x);
    SquareOfDifference(a.y, b.y);
    SquareOfDifference(a.z, b.z);
    SumSquaresNonNeg(a.x - b.x, a.y - b.y, a.z - b.z);
    SumSquaresNonNeg(a.x + b.x, a.y + b.y, a.z + b.z);
  }

  lemma DivBack(a: real, g: real)
    requires g != 0.0
    ensures (a / g) * g == a
  {
  }

  /** A vector divided by its lawful, non-zero length is a unit vector. */
  lemma Normalised(m: Libm, v: Vec3)
    requires LawfulLength(m, v) && Length(m, v) != 0.0
    ensures IsUnit(Vec3(v.x / Length(m, v), v.y / Length(m, v), v.z / Length(m, v)))
  {
    var g := Length(m, v);
    DivBack(v.x, g);
    DivBack(v.y, g);
    DivBack(v.z, g);
    UnitOfLawful(m, v, Vec3(v.x / g, v.y / g, v.z / g), g);
  }

  /** With a lawful square root the Lambert cosine is a cosine. */
  lemma LambertCosBounded(p: Polygon, light: LightSource, m: Libm)
    requires LawfulLength(m, LightVector(p, light))
    requires LawfulLength(m, RawNormal(p))
    requires LambertCos(p, light, m).Some?
    ensures -1.0 <= LambertCos(p, light, m).value <= 1.0
  {
    var lv := LightVector(p, light);
    var mag := Length(m, lv);
    var n := SurfaceNormal(p, m);
    assert mag != 0.0 && n.unit.Some?;
    var u := Vec3(lv.x / mag, lv.y / mag, lv.z / mag);
    Normalised(m, lv);
    UnitNormalIsUnit(p, m);
    UnitDotBounded(u, n.unit.value);
    assert LambertCos(p, light, m) == Some(u.Dot(n.unit.value));
  }

  /** Moving the polygon and the light by the same offset leaves the Lambert
      cosine unchanged. */
  lemma LambertTranslateInvariant(p: Polygon, light: LightSource, d: Vec3, m: Libm)
    ensures LambertCos(Polygons.Translate(p, d.x, d.y, d.z), light.(pos := light.pos.Plus(d)), m)
         == LambertCos(p, light, m)
  {
    var q := Polygons.Translate(p, d.x, d.y, d.z);
    CentroidTranslate(p, d.x, d.y, d.z);
    NormalTranslateInvariant(p, d.x, d.y, d.z, m);
    assert LightVector(q, light.(pos := light.pos.Plus(d))) == LightVector(p, light);
  }

  // ---------------------------------------------------------------------
  // One light
  // ---------------------------------------------------------------------

  /** `fillcolor[k] * I_diff[k]` with `I_diff[k] = (reflDiffuse * lightVec[k]) * dot`. */
  function DiffuseTerm(fill: real, refl: real, vec: real, dot: Option<real>): (r: Option<real>)
    ensures r.Some? <==> dot.Some?
    ensures dot == Some(0.0) ==> r == Some(0.0)
  {
    if dot.None? then None else Some(DiffuseProduct(fill, refl, vec, dot.value))
  }

  /** The product itself, for a numeric cosine. */
  function DiffuseProduct(fill: real, refl: real, vec: real, dot: real): real {
    fill * ((refl * vec) * dot)
  }

  /** `lightDiffuse` with the surface normal taken from
      `getsurfaceNormal().unitVector`. Reading the fill of a polygon without
      one throws. The `I_diff` guards compare an array with a number and never
      fire; the alpha slot starts at 0 and is only multiplied, so it stays 0. */
  function LightDiffuse(p: Polygon, light: LightSource, m: Libm): (r: Result<Pixel>)
    ensures r.Err? <==> p.fill.None?
    ensures r.Err? ==> r.fault == NullFill
    ensures r.Ok? ==> 0 <= r.value.r <= 255 && 0 <= r.value.g <= 255 && 0 <= r.value.b <= 255
    ensures r.Ok? ==> r.value.a == 0
    ensures r.Ok? && LambertCos(p, light, m).None? ==> r.value == Pixel(0, 0, 0, 0)
  {
    match p.fill
    case None => Err(NullFill)
    case Some(f) =>
      var dot := LambertCos(p, light, m);
      var refl := p.attribs.reflDiffuse;
      Ok(Pixel(Store(DiffuseTerm(f.r, refl, light.vec.r, dot), 255),
               Store(DiffuseTerm(f.g, refl, light.vec.g, dot), 255),
               Store(DiffuseTerm(f.b, refl, light.vec.b, dot), 255),
               Store(Some(0.0 * light.vec.a), 1)))
  }

  /** Each colour channel of `lightDiffuse`, for a numeric cosine c, is the
      store of fill x reflectivity x intensity x c. */
  lemma LightDiffuseChannels(p: Polygon, light: LightSource, m: Libm, f: Rgba, c: real)
    requires p.fill == Some(f) && LambertCos(p, light, m) == Some(c)
    ensures LightDiffuse(p, light, m).Ok?
    ensures LightDiffuse(p, light, m).value.r == Store(Some(DiffuseProduct(f.r, p.attribs.reflDiffuse, light.vec.r, c)), 255)
    ensures LightDiffuse(p, light, m).value.g == Store(Some(DiffuseProduct(f.g, p.attribs.reflDiffuse, light.vec.g, c)), 255)
    ensures LightDiffuse(p, light, m).value.b == Store(Some(DiffuseProduct(f.b, p.attribs.reflDiffuse, light.vec.b, c)), 255)
  {
  }

  /** `lightDiffuse` as written: it calls `this.getUnitVector()`, which no
      prototype defines, so every diffuse light throws a TypeError before
      the fill is read. */
  function LightDiffuseAsWritten(p: Polygon, light: LightSource, m: Libm): (r: Result<Pixel>)
    ensures r.Err? && r.fault == MissingMethod
  {
    Err(MissingMethod)
  }

  /** Whenever the polygon has a fill the intended diffuse term yields a colour,
      while the code as written throws. */
  lemma LightDiffuseAsWrittenThrows(p: Polygon, light: LightSource, m: Libm)
    requires p.fill.Some?
    ensures LightDiffuseAsWritten(p, light, m).Err?
    ensures LightDiffuse(p, light, m).Ok?
  {
  }

  lemma MulWithin(a: real, b: real, h: real)
    requires 0.0 <= a <= h && -1.0 <= b <= 1.0
    ensures -h <= a * b <= h
  {
    if b >= 0.0 {
      assert a * b <= a * 1.0;
    } else {
      assert a * (-b) <= a * 1.0;
    }
  }

  lemma NonNegMul(a: real, b: real)
    requires 0.0 <= a && 0.0 <= b
    ensures 0.0 <= a * b
  {
    if a > 0.0 && b > 0.0 {
      PosMul(a, b);
    }
  }

  lemma UnitProduct(a: real, b: real)
    requires 0.0 <= a <= 1.0 && 0.0 <= b <= 1.0
    ensures 0.0 <= a * b <= 1.0
  {
    NonNegMul(a, b);
    NonNegMul(1.0 - a, b);
    assert (1.0 - a) * b == b - a * b;
  }

  /** For nominal inputs the diffuse product lies in [-255, 255]. */
  lemma DiffuseProductBounded(fill: real, refl: real, vec: real, dot: real)
    requires 0.0 <= fill <= 255.0 && 0.0 <= refl <= 1.0 && 0.0 <= vec <= 1.0 && -1.0 <= dot <= 1.0
    ensures -255.0 <= DiffuseProduct(fill, refl, vec, dot) <= 255.0
  {
    UnitProduct(refl, vec);
    MulWithin(refl * vec, dot, 1.0);
    MulWithin(fill, (refl * vec) * dot, 255.0);
  }

  /** Within the nominal ranges (fill in [0, 255], reflectivity and intensity
      in [0, 1]) the diffuse channel is the floor of fill x reflectivity x
      intensity x cosine when that is non-negative, and 0 for a face lit from
      behind. */
  lemma DiffuseChannelExact(fill: real, refl: real, vec: real, dot: real)
    requires 0.0 <= fill <= 255.0 && 0.0 <= refl <= 1.0 && 0.0 <= vec <= 1.0 && -1.0 <= dot <= 1.0
    ensures var x := DiffuseProduct(fill, refl, vec, dot);
            -255.0 <= x <= 255.0
            && Store(DiffuseTerm(fill, refl, vec, Some(dot)), 255) == (if x >= 0.0 then x.Floor else 0)
  {
    DiffuseProductBounded(fill, refl, vec, dot);
    StoreClamps(DiffuseProduct(fill, refl, vec, dot), 255);
  }

  /** The `I_diff < 0` and `I_diff > 1` guards compare the whole array with a
      number, so they never fire: a factor of 1.5 goes through unclamped and
      a fill channel of 100 becomes 150, where a factor clamped to 1 would
      have left it at 100. */
  lemma DiffuseClampsNeverFire()
    ensures DiffuseTerm(100.0, 1.0, 2.0, Some(0.75)) == Some(150.0)
    ensures Store(DiffuseTerm(100.0, 1.0, 2.0, Some(0.75)), 255) == 150
    ensures Store(Some(100.0 * 1.0), 255) == 100
  {
    assert 100.0 * ((1.0 * 2.0) * 0.75) == 150.0;
    StoreClamps(150.0, 255);
    StoreClamps(100.0, 255);
  }

  /** `lightAmbient`: fill times intensity per channel, stored and clamped to
      [0, 255] (alpha to [0, 1]). It reads the fill, so a polygon without one
      throws. */
  function LightAmbient(p: Polygon, light: LightSource): (r: Result<Pixel>)
    ensures r.Err? <==> p.fill.None?
    ensures r.Err? ==> r.fault == NullFill
    ensures r.Ok? ==> 0 <= r.value.r <= 255 && 0 <= r.value.g <= 255 && 0 <= r.value.b <= 255
    ensures r.Ok? ==> 0 <= r.value.a <= 1
  {
    match p.fill
    case None => Err(NullFill)
    case Some(f) =>
      Ok(Pixel(AmbientChannel(f.r, light.vec.r, 255), AmbientChannel(f.g, light.vec.g, 255),
               AmbientChannel(f.b, light.vec.b, 255), AmbientChannel(f.a, light.vec.a, 1)))
  }

  /** One channel of `lightAmbient`: `fillcolor[k] * lightVec[k]`, stored. */
  function AmbientChannel(fill: real, intensity: real, hi: int): (r: int)
    requires 0 <= hi <= 255
    ensures 0 <= r <= hi
  {
    Store(Some(fill * intensity), hi)
  }

  /** An ambient channel whose product lies in [0, 256) is that product
      rounded down. */
  lemma AmbientChannelExact(fill: real, intensity: real)
    requires 0.0 <= fill * intensity < 256.0
    ensures AmbientChannel(fill, intensity, 255) == (fill * intensity).Floor
  {
    StoreClamps(fill * intensity, 255);
  }

  /** Each colour channel of `lightAmbient` is the ambient channel of the
      fill and the light's intensity. */
  lemma LightAmbientChannels(p: Polygon, light: LightSource, f: Rgba)
    requires p.fill == Some(f)
    ensures LightAmbient(p, light) == Ok(Pixel(AmbientChannel(f.r, light.vec.r, 255), AmbientChannel(f.g, light.vec.g, 255),
                                              AmbientChannel(f.b, light.vec.b, 255), AmbientChannel(f.a, light.vec.a, 1)))
  {
  }

  /** Half-strength ambient light on an orange, opaque fill halves each colour
      channel and keeps alpha 1. */
  lemma AmbientExample(p: Polygon, light: LightSource)
    requires p.fill == Some(Rgba(200.0, 100.0, 50.0, 1.0))
    requires light.vec == Intensity(0.5, 0.5, 0.5, 1.0)
    ensures LightAmbient(p, light) == Ok(Pixel(100, 50, 25, 1))
  {
    assert 200.0 * 0.5 == 100.0 && 100.0 * 0.5 == 50.0 && 50.0 * 0.5 == 25.0 && 1.0 * 1.0 == 1.0;
    StoreClamps(100.0, 255);
    StoreClamps(50.0, 255);
    StoreClamps(25.0, 255);
    StoreClamps(1.0, 1);
  }

  // ---------------------------------------------------------------------
  // All lights
  // ---------------------------------------------------------------------

  /** The diffuse lights, in order. */
  function DiffuseOnly(lights: seq<LightSource>): (r: seq<LightSource>)
    ensures |r| <= |lights|
    ensures forall i :: 0 <= i < |r| ==> r[i].kind == DIFFUSE
    ensures (forall i :: 0 <= i < |lights| ==> lights[i].kind == DIFFUSE) ==> r == lights
  {
    if |lights| == 0 then []
    else (if lights[0].kind == DIFFUSE then [lights[0]] else []) + DiffuseOnly(lights[1..])
  }

  /** A light is kept exactly when it is in the list with a kept kind, and
      nothing is kept more often than it occurs. */
  lemma {:induction false} DiffuseOnlyKeeps(lights: seq<LightSource>)
    ensures forall l :: l in DiffuseOnly(lights) <==> l in lights && l.kind == DIFFUSE
    ensures multiset(DiffuseOnly(lights)) <= multiset(lights)
    decreases |lights|
  {
    if |lights| > 0 {
      DiffuseOnlyKeeps(lights[1..]);
      assert lights == [lights[0]] + lights[1..];
    }
  }

  /** The lights other than the ambient ones, in order. */
  function WithoutAmbient(lights: seq<LightSource>): (r: seq<LightSource>)
    ensures |r| <= |lights|
    ensures forall i :: 0 <= i < |r| ==> r[i].kind != AMBIENT
    ensures (forall i :: 0 <= i < |lights| ==> lights[i].kind != AMBIENT) ==> r == lights
  {
    if |lights| == 0 then []
    else (if lights[0].kind == AMBIENT then [] else [lights[0]]) + WithoutAmbient(lights[1..])
  }

  /** A light is kept exactly when it is in the list with a kept kind, and
      nothing is kept more often than it occurs. */
  lemma {:induction false} WithoutAmbientKeeps(lights: seq<LightSource>)
    ensures forall l :: l in WithoutAmbient(lights) <==> l in lights && l.kind != AMBIENT
    ensures multiset(WithoutAmbient(lights)) <= multiset(lights)
    decreases |lights|
  {
    if |lights| > 0 {
      WithoutAmbientKeeps(lights[1..]);
      assert lights == [lights[0]] + lights[1..];
    }
  }

  /** A diffuse term as it leaves `lightDiffuse`: colour channels in [0, 255]
      and alpha 0. */
  predicate ValidEffect(e: Pixel) {
    0 <= e.r <= 255 && 0 <= e.g <= 255 && 0 <= e.b <= 255 && e.a == 0
  }

  predicate SomeUnknown(lights: seq<LightSource>) {
    exists i :: 0 <= i < |lights| && !KnownKind(lights[i].kind)
  }

  /** The first loop of `applyLights`, with the corrected `LightDiffuse`
      (the loop as written is `CollectEffectsAsWritten`): each diffuse light
      contributes its term, each ambient light is evaluated and its result
      dropped, and any other type throws. The first failure, in light order, is the one reported. */
  function CollectEffects(p: Polygon, lights: seq<LightSource>, m: Libm): (r: Result<seq<Pixel>>)
    ensures r.Err? <==> SomeUnknown(lights) || (p.fill.None? && |lights| > 0)
    ensures r.Err? && |lights| > 0 && !KnownKind(lights[0].kind) ==> r.fault == UnknownLightType
    ensures r.Err? && |lights| > 0 && KnownKind(lights[0].kind) && p.fill.None? ==> r.fault == NullFill
    ensures r.Ok? ==> |r.value| == |DiffuseOnly(lights)|
    ensures r.Ok? ==> forall j :: 0 <= j < |r.value| ==> ValidEffect(r.value[j])
    decreases |lights|
  {
    if |lights| == 0 then Ok([])
    else
      var l := lights[0];
      if l.kind == DIFFUSE then
        match LightDiffuse(p, l, m)
        case Err(e) => Err(e)
        case Ok(px) =>
          match CollectEffects(p, lights[1..], m)
          case Err(e) => Err(e)
          case Ok(rest) => Ok([px] + rest)
      else if l.kind == AMBIENT then
        match LightAmbient(p, l)
        case Err(e) => Err(e)
        case Ok(_) => CollectEffects(p, lights[1..], m)
      else Err(UnknownLightType)
  }

  /** On success, effect j is the diffuse term of the j-th diffuse light. */
  lemma {:induction false} EffectsAreDiffuseTerms(p: Polygon, lights: seq<LightSource>, m: Libm)
    requires CollectEffects(p, lights, m).Ok?
    ensures forall j :: 0 <= j < |CollectEffects(p, lights, m).value| ==>
              Ok(CollectEffects(p, lights, m).value[j]) == LightDiffuse(p, DiffuseOnly(lights)[j], m)
    decreases |lights|
  {
    if |lights| > 0 {
      var es := CollectEffects(p, lights, m).value;
      var rest := CollectEffects(p, lights[1..], m);
      assert rest.Ok?;
      EffectsAreDiffuseTerms(p, lights[1..], m);
      var ds := DiffuseOnly(lights[1..]);
      if lights[0].kind == DIFFUSE {
        assert DiffuseOnly(lights) == [lights[0]] + ds;
        assert es == [LightDiffuse(p, lights[0], m).value] + rest.value;
        forall j | 0 <= j < |es|
          ensures Ok(es[j]) == LightDiffuse(p, DiffuseOnly(lights)[j], m)
        {
          if j > 0 {
            assert es[j] == rest.value[j - 1];
            assert DiffuseOnly(lights)[j] == ds[j - 1];
          }
        }
      } else {
        assert DiffuseOnly(lights) == ds;
        assert es == rest.value;
      }
    }
  }

  /** The second loop of `applyLights`: channel-wise sum, first to last. */
  function SumEffects(es: seq<Pixel>): (r: Pixel)
    ensures (forall i :: 0 <= i < |es| ==> ValidEffect(es[i]))
            ==> 0 <= r.r <= 255 * |es| && 0 <= r.g <= 255 * |es| && 0 <= r.b <= 255 * |es| && r.a == 0
  {
    if |es| == 0 then Pixel(0, 0, 0, 0)
    else
      var s := SumEffects(es[..|es| - 1]);
      var e := es[|es| - 1];
      Pixel(s.r + e.r, s.g + e.g, s.b + e.b, s.a + e.a)
  }

  /** `applyLights` with the corrected `LightDiffuse` (as written it is
      `ApplyLightsAsWritten`): the summed diffuse terms become the fill. The
      sum is not clamped, so several lights can push a channel past 255. */
  function ApplyLights(p: Polygon, m: Libm): (r: Result<Polygon>)
    ensures r.Err? <==> SomeUnknown(p.attribs.lights) || (p.fill.None? && |p.attribs.lights| > 0)
    ensures r.Ok? ==> r.value.verts == p.verts && r.value.attribs == p.attribs
    ensures r.Ok? ==> r.value.strokeColor == p.strokeColor && r.value.style == p.style && r.value.name == p.name
    ensures r.Ok? ==> r.value.fill.Some? && r.value.fill.value.a == 0.0
    ensures r.Ok? ==> var n := (255 * |DiffuseOnly(p.attribs.lights)|) as real;
                      0.0 <= r.value.fill.value.r <= n && 0.0 <= r.value.fill.value.g <= n
                      && 0.0 <= r.value.fill.value.b <= n
  {
    match CollectEffects(p, p.attribs.lights, m)
    case Err(e) => Err(e)
    case Ok(es) =>
      var s := SumEffects(es);
      Ok(p.(fill := Some(Rgba(s.r as real, s.g as real, s.b as real, s.a as real))))
  }

  predicate SomeNotAmbient(lights: seq<LightSource>) {
    exists i :: 0 <= i < |lights| && lights[i].kind != AMBIENT
  }

  /** The first loop of `applyLights` as written, where every diffuse light
      runs `LightDiffuseAsWritten` and throws: the loop gets through only a
      list of ambient lights, on a polygon with a fill unless the list is
      empty, and then it has collected nothing. */
  function CollectEffectsAsWritten(p: Polygon, lights: seq<LightSource>, m: Libm): (r: Result<seq<Pixel>>)
    ensures r.Err? <==> SomeNotAmbient(lights) || (p.fill.None? && |lights| > 0)
    ensures r.Err? && |lights| > 0 && lights[0].kind == DIFFUSE ==> r.fault == MissingMethod
    ensures r.Err? && |lights| > 0 && !KnownKind(lights[0].kind) ==> r.fault == UnknownLightType
    ensures r.Ok? ==> r.value == []
    decreases |lights|
  {
    if |lights| == 0 then Ok([])
    else
      var l := lights[0];
      assert forall i :: 0 < i < |lights| ==> lights[i] == lights[1..][i - 1];
      if l.kind == DIFFUSE then Err(LightDiffuseAsWritten(p, l, m).fault)
      else if l.kind == AMBIENT then
        match LightAmbient(p, l)
        case Err(e) => Err(e)
        case Ok(_) => CollectEffectsAsWritten(p, lights[1..], m)
      else Err(UnknownLightType)
  }

  /** `applyLights` as written: when it gets through, the fill is [0, 0, 0, 0]
      whatever the lights and the old fill were. */
  function ApplyLightsAsWritten(p: Polygon, m: Libm): (r: Result<Polygon>)
    ensures r.Err? <==> SomeNotAmbient(p.attribs.lights) || (p.fill.None? && |p.attribs.lights| > 0)
    ensures r.Ok? ==> r.value == p.(fill := Some(Rgba(0.0, 0.0, 0.0, 0.0)))
  {
    match CollectEffectsAsWritten(p, p.attribs.lights, m)
    case Err(e) => Err(e)
    case Ok(es) =>
      var s := SumEffects(es);
      Ok(p.(fill := Some(Rgba(s.r as real, s.g as real, s.b as real, s.a as real))))
  }

  /** A polygon with a fill and one diffuse light: the intended pass succeeds
      while the code as written throws on the missing `getUnitVector`. */
  lemma ApplyLightsAsWrittenThrows(p: Polygon, light: LightSource, m: Libm)
    requires p.fill.Some? && light.kind == DIFFUSE && p.attribs.lights == [light]
    ensures ApplyLightsAsWritten(p, m) == Err(MissingMethod)
    ensures ApplyLights(p, m).Ok?
  {
    assert !SomeUnknown(p.attribs.lights);
  }

  /** `addLightSource`: the light joins the end of the list. */
  function AddLightSource(p: Polygon, light: LightSource): (r: Polygon)
    ensures r.attribs.lights == p.attribs.lights + [light]
    ensures r.verts == p.verts && r.fill == p.fill && r.attribs.reflDiffuse == p.attribs.reflDiffuse
    ensures r.(attribs := p.attribs) == p && r.attribs.(lights := p.attribs.lights) == p.attribs
  {
    p.(attribs := p.attribs.(lights := p.attribs.lights + [light]))
  }

  // ---------------------------------------------------------------------
  // Properties of the lighting pass
  // ---------------------------------------------------------------------

  /** A polygon without lights ends up with the fill [0, 0, 0, 0], even if it
      had none. */
  lemma NoLightsBlack(p: Polygon, m: Libm)
    requires p.attribs.lights == []
    ensures ApplyLights(p, m) == Ok(p.(fill := Some(Rgba(0.0, 0.0, 0.0, 0.0))))
  {
  }

  /** With a fill present, ambient lights contribute nothing: dropping them
      from the list gives the same effects. */
  lemma {:induction false} AmbientIgnored(p: Polygon, lights: seq<LightSource>, m: Libm)
    requires p.fill.Some?
    ensures CollectEffects(p, WithoutAmbient(lights), m) == CollectEffects(p, lights, m)
    decreases |lights|
  {
    if |lights| > 0 {
      AmbientIgnored(p, lights[1..], m);
      var rest := WithoutAmbient(lights[1..]);
      if lights[0].kind == AMBIENT {
        assert WithoutAmbient(lights) == rest;
      } else {
        assert WithoutAmbient(lights) == [lights[0]] + rest;
        assert WithoutAmbient(lights)[1..] == rest;
      }
    }
  }

  /** The lighting pass reads a polygon's geometry, fill and diffuse
      reflectivity, not the rest of its attributes. */
  lemma {:induction false} CollectEffectsLocal(p: Polygon, q: Polygon, lights: seq<LightSource>, m: Libm)
    requires q.verts == p.verts && q.fill == p.fill && q.attribs.reflDiffuse == p.attribs.reflDiffuse
    ensures CollectEffects(q, lights, m) == CollectEffects(p, lights, m)
    decreases |lights|
  {
    if |lights| > 0 {
      CollectEffectsLocal(p, q, lights[1..], m);
      assert LightDiffuse(q, lights[0], m) == LightDiffuse(p, lights[0], m);
    }
  }

  /** What one known light puts in front of the effects of the rest. */
  function Contribution(p: Polygon, light: LightSource, m: Libm): (r: seq<Pixel>)
    requires p.fill.Some?
    ensures |r| == (if light.kind == DIFFUSE then 1 else 0)
  {
    if light.kind == DIFFUSE then [LightDiffuse(p, light, m).value] else []
  }

  /** With a fill, a known light never fails and contributes its term
      (diffuse) or nothing (ambient) ahead of the rest. */
  lemma CollectEffectsStep(p: Polygon, lights: seq<LightSource>, m: Libm)
    requires p.fill.Some? && |lights| > 0 && KnownKind(lights[0].kind)
    ensures CollectEffects(p, lights, m).Ok? <==> CollectEffects(p, lights[1..], m).Ok?
    ensures CollectEffects(p, lights, m).Ok? ==>
              CollectEffects(p, lights, m).value == Contribution(p, lights[0], m) + CollectEffects(p, lights[1..], m).value
  {
  }

  /** Effects of a list followed by one more light. */
  lemma {:induction false} CollectEffectsAppend(p: Polygon, lights: seq<LightSource>, light: LightSource, m: Libm)
    requires p.fill.Some? && KnownKind(light.kind)
    ensures CollectEffects(p, lights + [light], m).Ok? <==> CollectEffects(p, lights, m).Ok?
    ensures CollectEffects(p, lights, m).Ok? ==>
              CollectEffects(p, lights + [light], m).value
              == CollectEffects(p, lights, m).value + (if light.kind == DIFFUSE then [LightDiffuse(p, light, m).value] else [])
    decreases |lights|
  {
    var ls := lights + [light];
    if |lights| == 0 {
      CollectEffectsStep(p, ls, m);
      assert ls[1..] == [];
    } else {
      assert ls[0] == lights[0];
      assert ls[1..] == lights[1..] + [light];
      if KnownKind(lights[0].kind) {
        CollectEffectsAppend(p, lights[1..], light, m);
        CollectEffectsStep(p, lights, m);
        CollectEffectsStep(p, ls, m);
      }
    }
  }

  /** Summing one more effect adds it channel by channel. */
  lemma SumEffectsSnoc(es: seq<Pixel>, px: Pixel)
    ensures SumEffects(es + [px]) == Pixel(SumEffects(es).r + px.r, SumEffects(es).g + px.g,
                                           SumEffects(es).b + px.b, SumEffects(es).a + px.a)
  {
    assert (es + [px])[..|es + [px]| - 1] == es;
  }

  /** Adding a diffuse light to a lit polygon adds that light's term to each
      channel of the resulting fill. */
  lemma AddDiffuseLightAdds(p: Polygon, light: LightSource, m: Libm)
    requires p.fill.Some? && light.kind == DIFFUSE
    requires !SomeUnknown(p.attribs.lights)
    ensures ApplyLights(AddLightSource(p, light), m).Ok?
    ensures var before := ApplyLights(p, m).value.fill.value;
            var after := ApplyLights(AddLightSource(p, light), m).value.fill.value;
            var px := LightDiffuse(p, light, m).value;
            after == Rgba(before.r + px.r as real, before.g + px.g as real, before.b + px.b as real,
                          before.a + px.a as real)
  {
    var ls := p.attribs.lights;
    var q := AddLightSource(p, light);
    CollectEffectsAppend(p, ls, light, m);
    CollectEffectsLocal(p, q, ls + [light], m);
    var es := CollectEffects(p, ls, m).value;
    var px := LightDiffuse(p, light, m).value;
    assert CollectEffects(q, q.attribs.lights, m) == Ok(es + [px]);
    SumEffectsSnoc(es, px);
    ApplyLightsFill(p, m);
    ApplyLightsFill(q, m);
  }

  /** On success the fill is the channel sum of the collected effects. */
  lemma ApplyLightsFill(p: Polygon, m: Libm)
    requires CollectEffects(p, p.attribs.lights, m).Ok?
    ensures ApplyLights(p, m).Ok?
    ensures var s := SumEffects(CollectEffects(p, p.attribs.lights, m).value);
            ApplyLights(p, m).value.fill == Some(Rgba(s.r as real, s.g as real, s.b as real, s.a as real))
  {
  }

  /** Adding an ambient light to a lit polygon leaves the resulting fill as it
      was. */
  lemma AddAmbientLightNoEffect(p: Polygon, light: LightSource, m: Libm)
    requires p.fill.Some? && light.kind == AMBIENT
    requires !SomeUnknown(p.attribs.lights)
    ensures ApplyLights(AddLightSource(p, light), m).Ok?
    ensures ApplyLights(AddLightSource(p, light), m).value.fill == ApplyLights(p, m).value.fill
  {
    var ls := p.attribs.lights;
    var q := AddLightSource(p, light);
    CollectEffectsAppend(p, ls, light, m);
    CollectEffectsLocal(p, q, ls + [light], m);
    var es := CollectEffects(p, ls, m).value;
    assert CollectEffects(p, ls + [light], m).value == es + [];
    assert es + [] == es;
    assert CollectEffects(q, q.attribs.lights, m) == Ok(es);
  }

  /** Moving the polygon and the light together leaves the diffuse term of
      that light unchanged. */
  lemma DiffuseTranslateInvariant(p: Polygon, light: LightSource, d: Vec3, m: Libm)
    ensures LightDiffuse(Polygons.Translate(p, d.x, d.y, d.z), light.(pos := light.pos.Plus(d)), m)
         == LightDiffuse(p, light, m)
  {
    LambertTranslateInvariant(p, light, d, m);
  }
}

=== FILE: line.dfy ===
/** Line segments. A Line owns two fresh points built from the coordinates of
    its arguments and forwards every transform to both of them. */
module Lines {
  import opened Outcomes
  import opened JsMath
  import opened Vertices

  datatype Line = Line(start: Vertex, end: Vertex, color: string, style: int, name: string)

  /** The constructor: only the coordinates of `a` and `b` are copied. It
      reads `a.x` and `b.x` first thing, so a missing endpoint throws. */
  function NewLine(a: Option<Vertex>, b: Option<Vertex>, color: string, style: int, name: string): (r: Result<Line>)
    ensures r.Ok? <==> a.Some? && b.Some?
    ensures r.Err? ==> r.fault == NullVertex
    ensures r.Ok? ==> r.value.start.Pos() == a.value.Pos() && r.value.end.Pos() == b.value.Pos()
    ensures r.Ok? ==> r.value.start.look == Unstyled && r.value.end.look == Unstyled
    ensures r.Ok? ==> r.value.color == color && r.value.style == style && r.value.name == name
  {
    match (a, b)
    case (Some(va), Some(vb)) => Ok(Line(CopyCoords(va), CopyCoords(vb), color, style, name))
    case _ => Err(NullVertex)
  }

  /** Applies a point transform to both endpoints, leaving the stroke alone. */
  function Both(l: Line, f: Vertex --> Vertex): (r: Line)
    requires f.requires(l.start) && f.requires(l.end)
    ensures r.start == f(l.start) && r.end == f(l.end)
    ensures r.color == l.color && r.style == l.style && r.name == l.name
  {
    l.(start := f(l.start), end := f(l.end))
  }

  function Ortho(l: Line, cubesize: real): (r: Line)
    requires cubesize != 0.0
    ensures r == Both(l, v requires cubesize != 0.0 => Vertices.Ortho(v, cubesize))
  {
    l.(start := Vertices.Ortho(l.start, cubesize), end := Vertices.Ortho(l.end, cubesize))
  }

  function Perspective(l: Line, cubesize: real, focalLen: real): (r: Line)
    requires cubesize != 0.0 && focalLen + l.start.z != 0.0 && focalLen + l.end.z != 0.0
    ensures r.start == Vertices.Perspective(l.start, cubesize, focalLen)
    ensures r.end == Vertices.Perspective(l.end, cubesize, focalLen)
    ensures r.color == l.color && r.style == l.style && r.name == l.name
  {
    l.(start := Vertices.Perspective(l.start, cubesize, focalLen),
       end := Vertices.Perspective(l.end, cubesize, focalLen))
  }

  function Scale(l: Line, factor: real): (r: Line)
    ensures r == Both(l, v => Vertices.Scale(v, factor))
  {
    l.(start := Vertices.Scale(l.start, factor), end := Vertices.Scale(l.end, factor))
  }

  function RotX(l: Line, angle: real, m: Libm): (r: Line)
    ensures r == Both(l, v => Vertices.RotX(v, angle, m))
  {
    l.(start := Vertices.RotX(l.start, angle, m), end := Vertices.RotX(l.end, angle, m))
  }

  function RotY(l: Line, angle: real, m: Libm): (r: Line)
    ensures r == Both(l, v => Vertices.RotY(v, angle, m))
  {
    l.(start := Vertices.RotY(l.start, angle, m), end := Vertices.RotY(l.end, angle, m))
  }

  function RotZ(l: Line, angle: real, m: Libm): (r: Line)
    ensures r == Both(l, v => Vertices.RotZ(v, angle, m))
  {
    l.(start := Vertices.RotZ(l.start, angle, m), end := Vertices.RotZ(l.end, angle, m))
  }

  function Translate(l: Line, dx: real, dy: real, dz: real): (r: Line)
    ensures r == Both(l, v => Vertices.Translate(v, dx, dy, dz))
  {
    l.(start := Vertices.Translate(l.start, dx, dy, dz), end := Vertices.Translate(l.end, dx, dy, dz))
  }

  /** `getCentroidZ`: the depth of the segment's midpoint. */
  function CentroidZ(l: Line): (r: real)
    ensures l.start.z <= l.end.z ==> l.start.z <= r <= l.end.z
    ensures l.end.z <= l.start.z ==> l.end.z <= r <= l.start.z
    ensures r - l.start.z == l.end.z - r
  {
    (l.start.z + l.end.z) / 2.0
  }

  /** Translating a segment and translating it back restores it. */
  lemma TranslateInverse(l: Line, dx: real, dy: real, dz: real)
    ensures Translate(Translate(l, dx, dy, dz), -dx, -dy, -dz) == l
  {
    Vertices.TranslateInverse(l.start, dx, dy, dz);
    Vertices.TranslateInverse(l.end, dx, dy, dz);
  }

  /** Translating a segment shifts its depth centroid by exactly dz. */
  lemma TranslateShiftsCentroidZ(l: Line, dx: real, dy: real, dz: real)
    ensures CentroidZ(Translate(l, dx, dy, dz)) == CentroidZ(l) + dz
  {
  }

  /** Rotating a segment about any axis by an angle and back restores it. */
  lemma RotInverse(l: Line, angle: real, m: Libm)
    requires UnitCircleAt(m, angle) && ParityAt(m, angle)
    ensures RotX(RotX(l, angle, m), -angle, m) == l
    ensures RotY(RotY(l, angle, m), -angle, m) == l
    ensures RotZ(RotZ(l, angle, m), -angle, m) == l
  {
    Vertices.RotXInverse(l.start, angle, m);
    Vertices.RotXInverse(l.end, angle, m);
    Vertices.RotYInverse(l.start, angle, m);
    Vertices.RotYInverse(l.end, angle, m);
    Vertices.RotZInverse(l.start, angle, m);
    Vertices.RotZInverse(l.end, angle, m);
  }

  /** Scaling a segment by f and then by 1/f restores it. */
  lemma ScaleInverse(l: Line, f: real)
    requires f != 0.0
    ensures Scale(Scale(l, f), 1.0 / f) == l
  {
    Vertices.ScaleInverse(l.start, f);
    Vertices.ScaleInverse(l.end, f);
  }
}

=== FILE: outcomes.dfy ===
/** Optional values and the exceptions the library throws.
    A JavaScript `null` field becomes `None`; a `throw` becomes `Err`. */
module Outcomes {

  datatype Option<+T> = None | Some(value: T)

  /** The ways a call into the library can end in an exception. */
  datatype Fault =
    | NotIndexable        // Polygon: element 0 of the vertex source is missing
    | NullVertex          // Polygon: a later element is null, so reading `.x` fails
    | UnknownLightType    // LightSource / applyLights: type tag is neither "DIFFUSE" nor "AMBIENT"
    | NullFill            // lighting a polygon whose fill colour is null
    | MissingMethod       // calling a method the object does not have
    | UndeclaredVariable  // strict-mode assignment to an undeclared name

  datatype Result<+T> = Ok(value: T) | Err(fault: Fault)
}

=== FILE: polygon.dfy ===
/** Planar polygons: an owned, non-empty ring of points, an optional RGBA fill
    and the material attributes used by the lighting pass. */
module Polygons {
  import opened Outcomes
  import opened JsMath
  import opened Vertices
  import opened Lights

  /** The vertex list of a polygon. The constructor throws unless element 0
      exists, so a constructed polygon always has at least one vertex. */
  type Ring = s: seq<Vertex> | |s| > 0 witness [Vertex(0.0, 0.0, 0.0, Unstyled)]

  /** A fill colour: r, g, b nominally in [0, 255] and alpha in [0, 1]. */
  datatype Rgba = Rgba(r: real, g: real, b: real, a: real)

  /** The recognised entries of `polyAttribs`. */
  datatype Attribs = Attribs(reflDiffuse: real, reflAmbient: real, lights: seq<LightSource>, renderWire: bool)

  /** The attributes a polygon gets when none are passed. */
  const DefaultAttribs: Attribs := Attribs(1.0, 1.0, [], false)

  datatype Polygon = Polygon(verts: Ring, strokeColor: string, style: int, fill: Option<Rgba>,
                             attribs: Attribs, name: string)

  /** Every field but the vertex list is the same. */
  predicate SameButVerts(p: Polygon, q: Polygon) {
    p.strokeColor == q.strokeColor && p.style == q.style && p.fill == q.fill
    && p.attribs == q.attribs && p.name == q.name
  }

  // ---------------------------------------------------------------------
  // Construction
  // ---------------------------------------------------------------------

  /** The clamps the constructor runs on a fill colour. */
  function ClampFill(c: Rgba): (r: Rgba)
    ensures 0.0 <= r.r <= 255.0 && 0.0 <= r.g <= 255.0 && 0.0 <= r.b <= 255.0 && 0.0 <= r.a <= 1.0
    ensures 0.0 <= c.r <= 255.0 ==> r.r == c.r
    ensures 0.0 <= c.g <= 255.0 ==> r.g == c.g
    ensures 0.0 <= c.b <= 255.0 ==> r.b == c.b
    ensures 0.0 <= c.a <= 1.0 ==> r.a == c.a
  {
    Rgba(Clamp(c.r, 0.0, 255.0), Clamp(c.g, 0.0, 255.0), Clamp(c.b, 0.0, 255.0), Clamp(c.a, 0.0, 1.0))
  }

  /** The copy loop of the constructor: a fresh coordinate-only point per
      element, failing at a null element (reading `.x` of null throws). */
  function CopyAll(vs: seq<Option<Vertex>>): (r: Option<seq<Vertex>>)
    ensures r.Some? <==> forall i :: 0 <= i < |vs| ==> vs[i].Some?
    ensures r.Some? ==> |r.value| == |vs|
    ensures r.Some? ==> forall i :: 0 <= i < |vs| ==> r.value[i] == CopyCoords(vs[i].value)
  {
    if |vs| == 0 then Some([])
    else match vs[0]
      case None => None
      case Some(v) =>
        match CopyAll(vs[1..])
        case None => None
        case Some(rest) => Some([CopyCoords(v)] + rest)
  }

  /** The `Polygon` constructor. `vertices` is the indexable source, with
      `None` for a null or missing element; `colorRGBA` and `props` may be null. */
  function NewPolygon(vertices: seq<Option<Vertex>>, strokeColor: string, style: int,
                      colorRGBA: Option<Rgba>, props: Option<Attribs>, name: string): (r: Result<Polygon>)
    ensures (|vertices| == 0 || vertices[0].None?) ==> r == Err(NotIndexable)
    ensures r.Ok? <==> |vertices| > 0 && forall i :: 0 <= i < |vertices| ==> vertices[i].Some?
    ensures |vertices| > 0 && vertices[0].Some? && r.Err? ==> r.fault == NullVertex
    ensures r.Ok? ==> |r.value.verts| == |vertices|
    ensures r.Ok? ==> forall i :: 0 <= i < |vertices| ==>
                        r.value.verts[i].Pos() == vertices[i].value.Pos() && r.value.verts[i].look == Unstyled
    ensures r.Ok? ==> (colorRGBA.None? <==> r.value.fill.None?)
    ensures r.Ok? && colorRGBA.Some? ==> r.value.fill == Some(ClampFill(colorRGBA.value))
    ensures r.Ok? ==> r.value.attribs == (if props.None? then DefaultAttribs else props.value)
    ensures r.Ok? ==> r.value.strokeColor == strokeColor && r.value.style == style && r.value.name == name
  {
    if |vertices| == 0 || vertices[0].None? then Err(NotIndexable)
    else match CopyAll(vertices)
      case None => Err(NullVertex)
      case Some(vs) =>
        var fill := match colorRGBA
          case None => None
          case Some(c) => Some(ClampFill(c));
        var attribs := match props
          case None => DefaultAttribs
          case Some(a) => a;
        Ok(Polygon(vs, strokeColor, style, fill, attribs, name))
  }

  /** The constructor clamps [300, -10, 128, 2] to [255, 0, 128, 1]. */
  lemma ConstructorClampsExample(v: Vertex)
    ensures NewPolygon([Some(v)], "", 0, Some(Rgba(300.0, -10.0, 128.0, 2.0)), None, "").Ok?
    ensures NewPolygon([Some(v)], "", 0, Some(Rgba(300.0, -10.0, 128.0, 2.0)), None, "").value.fill
         == Some(Rgba(255.0, 0.0, 128.0, 1.0))
  {
  }

  // ---------------------------------------------------------------------
  // Transforms: each applies the point transform to every vertex in place
  // ---------------------------------------------------------------------

  /** The per-vertex loop shared by every transform. */
  function Lift(vs: seq<Vertex>, f: Vertex --> Vertex): (r: seq<Vertex>)
    requires forall i :: 0 <= i < |vs| ==> f.requires(vs[i])
    ensures |r| == |vs|
    ensures forall i :: 0 <= i < |vs| ==> r[i] == f(vs[i])
  {
    if |vs| == 0 then [] else [f(vs[0])] + Lift(vs[1..], f)
  }

  function Ortho(p: Polygon, cubesize: real): (r: Polygon)
    requires cubesize != 0.0
    ensures SameButVerts(p, r) && |r.verts| == |p.verts|
    ensures forall i :: 0 <= i < |p.verts| ==> r.verts[i] == Vertices.Ortho(p.verts[i], cubesize)
  {
    p.(verts := Lift(p.verts, v requires cubesize != 0.0 => Vertices.Ortho(v, cubesize)))
  }

  /** Every vertex is strictly off the focal plane `z == -focalLen`. */
  predicate OffFocalPlane(p: Polygon, focalLen: real) {
    forall i :: 0 <= i < |p.verts| ==> focalLen + p.verts[i].z != 0.0
  }

  function Perspective(p: Polygon, cubesize: real, focalLen: real): (r: Polygon)
    requires cubesize != 0.0 && OffFocalPlane(p, focalLen)
    ensures SameButVerts(p, r) && |r.verts| == |p.verts|
    ensures forall i :: 0 <= i < |p.verts| ==> r.verts[i] == Vertices.Perspective(p.verts[i], cubesize, focalLen)
  {
    p.(verts := Lift(p.verts, (v: Vertex) requires cubesize != 0.0 && focalLen + v.z != 0.0 =>
                                Vertices.Perspective(v, cubesize, focalLen)))
  }

  function Scale(p: Polygon, factor: real): (r: Polygon)
    ensures SameButVerts(p, r) && |r.verts| == |p.verts|
    ensures forall i :: 0 <= i < |p.verts| ==> r.verts[i] == Vertices.Scale(p.verts[i], factor)
  {
    p.(verts := Lift(p.verts, v => Vertices.Scale(v, factor)))
  }

  function RotX(p: Polygon, angle: real, m: Libm): (r: Polygon)
    ensures SameButVerts(p, r) && |r.verts| == |p.verts|
    ensures forall i :: 0 <= i < |p.verts| ==> r.verts[i] == Vertices.RotX(p.verts[i], angle, m)
  {
    p.(verts := Lift(p.verts, v => Vertices.RotX(v, angle, m)))
  }

  function RotY(p: Polygon, angle: real, m: Libm): (r: Polygon)
    ensures SameButVerts(p, r) && |r.verts| == |p.verts|
    ensures forall i :: 0 <= i < |p.verts| ==> r.verts[i] == Vertices.RotY(p.verts[i], angle, m)
  {
    p.(verts := Lift(p.verts, v => Vertices.RotY(v, angle, m)))
  }

  function RotZ(p: Polygon, angle: real, m: Libm): (r: Polygon)
    ensures SameButVerts(p, r) && |r.verts| == |p.verts|
    ensures forall i :: 0 <= i < |p.verts| ==> r.verts[i] == Vertices.RotZ(p.verts[i], angle, m)
  {
    p.(verts := Lift(p.verts, v => Vertices.RotZ(v, angle, m)))
  }

  function Translate(p: Polygon, dx: real, dy: real, dz: real): (r: Polygon)
    ensures SameButVerts(p, r) && |r.verts| == |p.verts|
    ensures forall i :: 0 <= i < |p.verts| ==> r.verts[i] == Vertices.Translate(p.verts[i], dx, dy, dz)
  {
    p.(verts := Lift(p.verts, v => Vertices.Translate(v, dx, dy, dz)))
  }

  /** Translating a polygon and translating it back restores it. */
  lemma TranslateInverse(p: Polygon, dx: real, dy: real, dz: real)
    ensures Translate(Translate(p, dx, dy, dz), -dx, -dy, -dz) == p
  {
    var q := Translate(Translate(p, dx, dy, dz), -dx, -dy, -dz);
    forall i | 0 <= i < |p.verts|
      ensures q.verts[i] == p.verts[i]
    {
      Vertices.TranslateInverse(p.verts[i], dx, dy, dz);
    }
    assert q.verts == p.verts;
  }

  /** Scaling a polygon by f and then by 1/f restores it. */
  lemma ScaleInverse(p: Polygon, f: real)
    requires f != 0.0
    ensures Scale(Scale(p, f), 1.0 / f) == p
  {
    var q := Scale(Scale(p, f), 1.0 / f);
    forall i | 0 <= i < |p.verts|
      ensures q.verts[i] == p.verts[i]
    {
      Vertices.ScaleInverse(p.verts[i], f);
    }
    assert q.verts == p.verts;
  }

  /** Rotating a polygon about any axis by an angle and back restores it. */
  lemma RotInverse(p: Polygon, angle: real, m: Libm)
    requires UnitCircleAt(m, angle) && ParityAt(m, angle)
    ensures RotX(RotX(p, angle, m), -angle, m) == p
    ensures RotY(RotY(p, angle, m), -angle, m) == p
    ensures RotZ(RotZ(p, angle, m), -angle, m) == p
  {
    var qx := RotX(RotX(p, angle, m), -angle, m);
    var qy := RotY(RotY(p, angle, m), -angle, m);
    var qz := RotZ(RotZ(p, angle, m), -angle, m);
    forall i | 0 <= i < |p.verts|
      ensures qx.verts[i] == p.verts[i] && qy.verts[i] == p.verts[i] && qz.verts[i] == p.verts[i]
    {
      Vertices.RotXInverse(p.verts[i], angle, m);
      Vertices.RotYInverse(p.verts[i], angle, m);
      Vertices.RotZInverse(p.verts[i], angle, m);
    }
    assert qx.verts == p.verts;
    assert qy.verts == p.verts;
    assert qz.verts == p.verts;
  }

  // ---------------------------------------------------------------------
  // Centroids
  // ---------------------------------------------------------------------

  /** The accumulator of `getCentroid` after the first k vertices. */
  function SumPos(vs: seq<Vertex>, k: nat): Vec3
    requires k <= |vs|
  {
    if k == 0 then Vec3(0.0, 0.0, 0.0)
    else
      var s := SumPos(vs, k - 1);
      Vec3(s.x + vs[k - 1].x, s.y + vs[k - 1].y, s.z + vs[k - 1].z)
  }

  /** The accumulator of `getCentroidZ` after the first k vertices. */
  function SumZ(vs: seq<Vertex>, k: nat): real
    requires k <= |vs|
  {
    if k == 0 then 0.0 else SumZ(vs, k - 1) + vs[k - 1].z
  }

  /** The index of a shallowest vertex. */
  function ArgMinZ(vs: seq<Vertex>): (r: nat)
    requires |vs| > 0
    ensures r < |vs| && forall i :: 0 <= i < |vs| ==> vs[r].z <= vs[i].z
  {
    if |vs| == 1 then 0
    else
      var j := ArgMinZ(vs[..|vs| - 1]);
      assert forall i :: 0 <= i < |vs| - 1 ==> vs[..|vs| - 1][i] == vs[i];
      if vs[|vs| - 1].z < vs[j].z then |vs| - 1 else j
  }

  /** The index of a deepest vertex. */
  function ArgMaxZ(vs: seq<Vertex>): (r: nat)
    requires |vs| > 0
    ensures r < |vs| && forall i :: 0 <= i < |vs| ==> vs[i].z <= vs[r].z
  {
    if |vs| == 1 then 0
    else
      var j := ArgMaxZ(vs[..|vs| - 1]);
      assert forall i :: 0 <= i < |vs| - 1 ==> vs[..|vs| - 1][i] == vs[i];
      if vs[|vs| - 1].z > vs[j].z then |vs| - 1 else j
  }

  /** `getCentroidZ`: the mean depth of the vertices, which lies between the
      shallowest and the deepest vertex. */
  function CentroidZ(p: Polygon): (r: real)
    ensures r * (|p.verts| as real) == SumZ(p.verts, |p.verts|)
    ensures p.verts[ArgMinZ(p.verts)].z <= r <= p.verts[ArgMaxZ(p.verts)].z
  {
    var vs := p.verts;
    var lo, hi := vs[ArgMinZ(vs)].z, vs[ArgMaxZ(vs)].z;
    SumZBounds(vs, |vs|, lo, hi);
    MeanWithin(SumZ(vs, |vs|), |vs| as real, lo, hi);
    MeanTimes(SumZ(vs, |vs|), |vs| as real);
    SumZ(vs, |vs|) / (|vs| as real)
  }

  /** `getCentroid`: the mean position of the vertices; its depth is the one
      `getCentroidZ` reports. */
  function Centroid(p: Polygon): (r: Vec3)
    ensures r.x * (|p.verts| as real) == SumPos(p.verts, |p.verts|).x
    ensures r.y * (|p.verts| as real) == SumPos(p.verts, |p.verts|).y
    ensures r.z * (|p.verts| as real) == SumPos(p.verts, |p.verts|).z
    ensures r.z == CentroidZ(p)
  {
    var n := |p.verts| as real;
    var s := SumPos(p.verts, |p.verts|);
    SumPosZ(p.verts, |p.verts|);
    MeanTimes(s.x, n);
    MeanTimes(s.y, n);
    MeanTimes(s.z, n);
    Vec3(s.x / n, s.y / n, s.z / n)
  }

  /** A mean times the count gives back the sum. */
  lemma MeanTimes(s: real, n: real)
    requires n > 0.0
    ensures (s / n) * n == s
  {
  }

  lemma {:induction false} SumPosZ(vs: seq<Vertex>, k: nat)
    requires k <= |vs|
    ensures SumPos(vs, k).z == SumZ(vs, k)
    decreases k
  {
    if k > 0 {
      SumPosZ(vs, k - 1);
    }
  }

  /** The two centroid accessors agree on depth. */
  lemma CentroidZAgrees(p: Polygon)
    ensures Centroid(p).z == CentroidZ(p)
  {
    SumPosZ(p.verts, |p.verts|);
  }

  lemma {:induction false} SumPosTranslate(vs: seq<Vertex>, ws: seq<Vertex>, d: Vec3, k: nat)
    requires |ws| == |vs| && k <= |vs|
    requires forall i :: 0 <= i < |vs| ==> ws[i].Pos() == vs[i].Pos().Plus(d)
    ensures SumPos(ws, k) == SumPos(vs, k).Plus(Times(k, d))
    decreases k
  {
    if k > 0 {
      SumPosTranslate(vs, ws, d, k - 1);
      var j := (k - 1) as real;
      assert j * d.x + d.x == k as real * d.x;
      assert j * d.y + d.y == k as real * d.y;
      assert j * d.z + d.z == k as real * d.z;
    }
  }

  /** The vector k * d. */
  function Times(k: nat, d: Vec3): Vec3 {
    Vec3(k as real * d.x, k as real * d.y, k as real * d.z)
  }

  /** Shifting each of n summands by d shifts their mean by d. */
  lemma ShiftMean(s: real, n: real, d: real)
    requires n > 0.0
    ensures (s + n * d) / n == s / n + d
  {
    var q := s / n;
    assert n * q == s;
    assert (s + n * d) == n * (q + d);
  }

  /** Translating a polygon moves its centroid by exactly the offset. */
  lemma CentroidTranslate(p: Polygon, dx: real, dy: real, dz: real)
    ensures Centroid(Translate(p, dx, dy, dz)) == Centroid(p).Plus(Vec3(dx, dy, dz))
    ensures CentroidZ(Translate(p, dx, dy, dz)) == CentroidZ(p) + dz
  {
    var q := Translate(p, dx, dy, dz);
    var n := |p.verts|;
    SumPosTranslate(p.verts, q.verts, Vec3(dx, dy, dz), n);
    MeanShift(SumPos(p.verts, n), SumPos(q.verts, n), n, Vec3(dx, dy, dz));
  }

  /** The mean of sums shifted by k * d is the mean shifted by d. */
  lemma MeanShift(s: Vec3, t: Vec3, k: nat, d: Vec3)
    requires k > 0
    requires t == s.Plus(Times(k, d))
    ensures Vec3(t.x / k as real, t.y / k as real, t.z / k as real)
         == Vec3(s.x / k as real, s.y / k as real, s.z / k as real).Plus(d)
  {
    ShiftMean(s.x, k as real, d.x);
    ShiftMean(s.y, k as real, d.y);
    ShiftMean(s.z, k as real, d.z);
  }

  lemma {:induction false} SumZBounds(vs: seq<Vertex>, k: nat, lo: real, hi: real)
    requires k <= |vs|
    requires forall i :: 0 <= i < |vs| ==> lo <= vs[i].z <= hi
    ensures k as real * lo <= SumZ(vs, k) <= k as real * hi
    decreases k
  {
    if k > 0 {
      SumZBounds(vs, k - 1, lo, hi);
    }
  }

  /** The depth centroid lies between the nearest and the farthest vertex. */
  lemma CentroidZWithin(p: Polygon, lo: real, hi: real)
    requires forall i :: 0 <= i < |p.verts| ==> lo <= p.verts[i].z <= hi
    ensures lo <= CentroidZ(p) <= hi
  {
    SumZBounds(p.verts, |p.verts|, lo, hi);
    MeanWithin(SumZ(p.verts, |p.verts|), |p.verts| as real, lo, hi);
  }

  /** The depth sum depends only on the first k vertices. */
  lemma {:induction false} SumZPrefix(vs: seq<Vertex>, ws: seq<Vertex>, k: nat)
    requires k <= |vs| && k <= |ws| && vs[..k] == ws[..k]
    ensures SumZ(vs, k) == SumZ(ws, k)
    decreases k
  {
    if k > 0 {
      assert vs[k - 1] == vs[..k][k - 1] == ws[..k][k - 1] == ws[k - 1];
      assert vs[..k - 1] == vs[..k][..k - 1] == ws[..k][..k - 1] == ws[..k - 1];
      SumZPrefix(vs, ws, k - 1);
    }
  }

  /** The depth sum of a concatenation is the sum of the depth sums. */
  lemma {:induction false} SumZAppend(a: seq<Vertex>, b: seq<Vertex>)
    ensures SumZ(a + b, |a + b|) == SumZ(a, |a|) + SumZ(b, |b|)
    decreases |b|
  {
    if |b| == 0 {
      assert a + b == a;
    } else {
      var b' := b[..|b| - 1];
      var n := |a + b|;
      SumZAppend(a, b');
      assert (a + b)[..n - 1] == a + b' == (a + b')[..n - 1];
      SumZPrefix(a + b, a + b', n - 1);
      assert b[..|b| - 1] == b'[..|b'|];
      SumZPrefix(b, b', |b'|);
      assert (a + b)[n - 1] == b[|b| - 1];
    }
  }

  /** Taking the last element off one side and a matching element off the
      other keeps two sequences permutations of each other. */
  lemma RemoveMatching(vs: seq<Vertex>, ws: seq<Vertex>, j: nat)
    requires multiset(vs) == multiset(ws) && 0 < |vs| && j < |ws| && ws[j] == vs[|vs| - 1]
    ensures multiset(vs[..|vs| - 1]) == multiset(ws[..j] + ws[j + 1..])
  {
    var a, x := vs[..|vs| - 1], ws[j];
    var b := ws[..j] + ws[j + 1..];
    assert vs == a + [x];
    assert ws == ws[..j] + [x] + ws[j + 1..];
    assert multiset(a) + multiset{x} == multiset(b) + multiset{x};
    forall y
      ensures multiset(a)[y] == multiset(b)[y]
    {
      assert (multiset(a) + multiset{x})[y] == (multiset(b) + multiset{x})[y];
    }
  }

  /** Taking one vertex out of a sequence takes its depth out of the sum. */
  lemma SumZRemove(ws: seq<Vertex>, j: nat)
    requires j < |ws|
    ensures SumZ(ws, |ws|) == SumZ(ws[..j] + ws[j + 1..], |ws| - 1) + ws[j].z
  {
    SumZRemoveUpTo(ws, j, |ws|);
  }

  /** The same, for every prefix of `ws` that contains the removed vertex. */
  lemma {:induction false} SumZRemoveUpTo(ws: seq<Vertex>, j: nat, k: nat)
    requires j < k <= |ws|
    ensures SumZ(ws, k) == SumZ(ws[..j] + ws[j + 1..], k - 1) + ws[j].z
    decreases k
  {
    var r := ws[..j] + ws[j + 1..];
    if k == j + 1 {
      assert r[..j] == ws[..j];
      SumZPrefix(ws, r, j);
    } else {
      SumZRemoveUpTo(ws, j, k - 1);
      assert r[k - 2] == ws[k - 1];
    }
  }

  /** The depth sum does not depend on the order of the vertices. */
  lemma {:induction false} SumZPermutation(vs: seq<Vertex>, ws: seq<Vertex>)
    requires multiset(vs) == multiset(ws)
    ensures SumZ(vs, |vs|) == SumZ(ws, |ws|)
    decreases |vs|
  {
    if |vs| == 0 {
      assert |multiset(ws)| == 0;
    } else {
      var n := |vs|;
      assert vs[n - 1] in multiset(ws);
      var j :| 0 <= j < |ws| && ws[j] == vs[n - 1];
      RemoveMatching(vs, ws, j);
      SumZPermutation(vs[..n - 1], ws[..j] + ws[j + 1..]);
      SumZRemove(ws, j);
      SumZRemove(vs, n - 1);
      assert vs[..n - 1] + vs[n..] == vs[..n - 1];
    }
  }

  /** `getCentroidZ` is the mean depth, so listing the same vertices in
      another order does not change it. */
  lemma CentroidZPermutation(p: Polygon, vs: Ring)
    requires multiset(vs) == multiset(p.verts)
    ensures CentroidZ(p.(verts := vs)) == CentroidZ(p)
  {
    assert |multiset(vs)| == |vs| && |multiset(p.verts)| == |p.verts|;
    SumZPermutation(vs, p.verts);
  }

  /** A sum of n terms in [lo, hi], divided by n, lies in [lo, hi]. */
  lemma MeanWithin(s: real, n: real, lo: real, hi: real)
    requires n > 0.0 && n * lo <= s <= n * hi
    ensures lo <= s / n <= hi
  {
    var q := s / n;
    assert n * q == s;
  }

  /** The square (0,0,0), (2,0,0), (2,2,0), (0,2,0), in the order a caller lists it. */
  function Square(): Ring {
    [Vertex(0.0, 0.0, 0.0, Unstyled), Vertex(2.0, 0.0, 0.0, Unstyled),
     Vertex(2.0, 2.0, 0.0, Unstyled), Vertex(0.0, 2.0, 0.0, Unstyled)]
  }

  /** Every vertex of that square lies in the plane z = 0. */
  lemma SquareFlat()
    ensures |Square()| == 4
    ensures forall i :: 0 <= i < |Square()| ==> Square()[i].z == 0.0
  {
  }

  /** The centroid of that square is (1, 1, 0) and its depth centroid is 0. */
  lemma SquareCentroid(p: Polygon)
    requires p.verts == Square()
    ensures Centroid(p) == Vec3(1.0, 1.0, 0.0) && CentroidZ(p) == 0.0
  {
    var vs := Square();
    assert vs[0].Pos() == Vec3(0.0, 0.0, 0.0);
    assert vs[1].Pos() == Vec3(2.0, 0.0, 0.0);
    assert vs[2].Pos() == Vec3(2.0, 2.0, 0.0);
    assert vs[3].Pos() == Vec3(0.0, 2.0, 0.0);
    assert SumPos(vs, 0) == Vec3(0.0, 0.0, 0.0);
    assert SumPos(vs, 1) == Vec3(0.0, 0.0, 0.0);
    assert SumPos(vs, 2) == Vec3(2.0, 0.0, 0.0);
    assert SumPos(vs, 3) == Vec3(4.0, 2.0, 0.0);
    assert SumPos(vs, 4) == Vec3(4.0, 4.0, 0.0);
    assert |vs| == 4;
    assert Centroid(p) == Vec3(4.0 / 4.0, 4.0 / 4.0, 0.0 / 4.0);
    CentroidZAgrees(p);
  }
}

=== FILE: surface.dfy ===
/** The surface normal of a polygon (Newell's method over the vertex ring) and
    the back-face test built on it. */
module Surface {
  import opened Outcomes
  import opened JsMath
  import opened Vertices
  import opened Polygons

  /** The index `k % n` for `0 <= k <= n`: the successor of vertex k - 1
      around the ring. */
  function Wrap(n: nat, k: nat): (r: nat)
    requires 0 < n && k <= n
    ensures r < n
  {
    if k == n then 0 else k
  }

  /** `Wrap` is the `(i + 1) % len` of the normal loop. */
  lemma WrapIsMod(n: nat, i: nat)
    requires i < n
    ensures Wrap(n, i + 1) == (i + 1) % n
  {
  }

  /** The sum of an edge quantity over the first k edges of the ring; edge i
      runs from vertex i to vertex (i + 1) % n. */
  function EdgeSum(vs: seq<Vertex>, t: (Vertex, Vertex) -> real, k: nat): real
    requires 0 < |vs| && k <= |vs|
  {
    if k == 0 then 0.0 else EdgeSum(vs, t, k - 1) + t(vs[k - 1], vs[Wrap(|vs|, k)])
  }

  /** The three accumulators of the normal loop, per edge (a, b). */
  function NewellX(a: Vertex, b: Vertex): real { (a.y - b.y) * (a.z + b.z) }
  function NewellY(a: Vertex, b: Vertex): real { (a.z - b.z) * (a.z + b.z) }
  function NewellZ(a: Vertex, b: Vertex): real { (a.x - b.x) * (a.y + b.y) }

  /** The raw normal `getsurfaceNormal()[0..2]`: its x component is twice the
      signed area of the ring projected on the y-z plane, its y component
      always vanishes and its z component is twice the signed shoelace area. */
  function RawNormal(p: Polygon): (r: Vec3)
    ensures r.x == EdgeSum(p.verts, CrossYZ, |p.verts|)
    ensures r.y == 0.0
    ensures r.z == SignedArea2(p)
  {
    NewellXIsShoelace(p.verts);
    NewellYVanishes(p.verts);
    NewellZIsShoelace(p.verts);
    Vec3(EdgeSum(p.verts, NewellX, |p.verts|), EdgeSum(p.verts, NewellY, |p.verts|),
         EdgeSum(p.verts, NewellZ, |p.verts|))
  }

  /** `Math.sqrt(v[0]*v[0] + v[1]*v[1] + v[2]*v[2])`, as the library writes
      a vector's length. */
  function Length(m: Libm, v: Vec3): real {
    m.sqrt(v.x * v.x + v.y * v.y + v.z * v.z)
  }

  /** The square root obeys its law at the squared length of v. */
  predicate LawfulLength(m: Libm, v: Vec3) {
    SqrtAt(m, v.x * v.x + v.y * v.y + v.z * v.z)
  }

  predicate IsUnit(v: Vec3) {
    v.x * v.x + v.y * v.y + v.z * v.z == 1.0
  }

  /** What `getsurfaceNormal` returns: the raw normal, its magnitude and the
      unit normal; the unit normal is `None` (NaN components) at magnitude 0. */
  datatype Normal = Normal(raw: Vec3, magnitude: real, unit: Option<Vec3>)

  function SurfaceNormal(p: Polygon, m: Libm): (r: Normal)
    ensures r.raw == RawNormal(p)
    ensures r.magnitude == Length(m, r.raw)
    ensures r.raw.y == 0.0
    ensures r.unit.Some? <==> r.magnitude != 0.0
    ensures r.unit.Some? ==> (r.unit.value.x * r.magnitude == r.raw.x
                              && r.unit.value.y * r.magnitude == r.raw.y
                              && r.unit.value.z * r.magnitude == r.raw.z)
  {
    var raw := RawNormal(p);
    var mag := Length(m, raw);
    Normal(raw, mag, if mag == 0.0 then None else Some(Vec3(raw.x / mag, raw.y / mag, raw.z / mag)))
  }

  /** `shouldRender`: the face is drawn when the normal points toward -z,
      which is exactly when the projected ring is clockwise in a y-up frame
      (negative shoelace area). */
  function ShouldRender(p: Polygon): (r: bool)
    ensures r <==> SignedArea2(p) < 0.0
  {
    RawNormal(p).z < 0.0
  }

  // ---------------------------------------------------------------------
  // Edge sums: linearity and telescoping
  // ---------------------------------------------------------------------

  /** Edge (i, i+1) of a ring, as the pair the loop body reads. */
  predicate EdgeSplits(vs: seq<Vertex>, ws: seq<Vertex>, t: (Vertex, Vertex) -> real,
                       u: (Vertex, Vertex) -> real, h: (Vertex, Vertex) -> real)
    requires 0 < |vs| == |ws|
  {
    forall i :: 0 <= i < |vs| ==>
      t(ws[i], ws[Wrap(|vs|, i + 1)]) == u(vs[i], vs[Wrap(|vs|, i + 1)]) + h(vs[i], vs[Wrap(|vs|, i + 1)])
  }

  /** If every edge term of `ws` under t splits into a u part and an h part on
      the matching edge of `vs`, the edge sums split the same way. */
  lemma {:induction false} EdgeSumSplit(vs: seq<Vertex>, ws: seq<Vertex>, t: (Vertex, Vertex) -> real,
                                        u: (Vertex, Vertex) -> real, h: (Vertex, Vertex) -> real, k: nat)
    requires 0 < |vs| == |ws| && k <= |vs|
    requires EdgeSplits(vs, ws, t, u, h)
    ensures EdgeSum(ws, t, k) == EdgeSum(vs, u, k) + EdgeSum(vs, h, k)
    decreases k
  {
    if k > 0 {
      EdgeSumSplit(vs, ws, t, u, h, k - 1);
      assert k - 1 + 1 == k;
    }
  }

  /** An edge term that is a difference g(a) - g(b) telescopes: after k edges
      only g at vertex 0 and at the successor of edge k - 1 remain, and around
      the whole ring nothing remains. */
  lemma {:induction false} Telescope(vs: seq<Vertex>, t: (Vertex, Vertex) -> real, g: Vertex -> real, k: nat)
    requires 0 < |vs| && k <= |vs|
    requires forall i :: 0 <= i < |vs| ==> t(vs[i], vs[Wrap(|vs|, i + 1)]) == g(vs[i]) - g(vs[Wrap(|vs|, i + 1)])
    ensures EdgeSum(vs, t, k) == g(vs[0]) - g(vs[Wrap(|vs|, k)])
    decreases k
  {
    if k > 0 {
      Telescope(vs, t, g, k - 1);
      assert k - 1 + 1 == k;
    }
  }

  // ---------------------------------------------------------------------
  // The y component vanishes
  // ---------------------------------------------------------------------

  lemma DiffOfSquares(a: Vertex, b: Vertex)
    ensures NewellY(a, b) == a.z * a.z - b.z * b.z
  {
  }

  /** Around a closed ring the y accumulator of the normal is always 0:
      `(zi - zj)(zi + zj)` sums to zero. */
  lemma NewellYVanishes(vs: seq<Vertex>)
    requires 0 < |vs|
    ensures EdgeSum(vs, NewellY, |vs|) == 0.0
  {
    var g := (v: Vertex) => v.z * v.z;
    forall i | 0 <= i < |vs|
      ensures NewellY(vs[i], vs[Wrap(|vs|, i + 1)]) == g(vs[i]) - g(vs[Wrap(|vs|, i + 1)])
    {
      DiffOfSquares(vs[i], vs[Wrap(|vs|, i + 1)]);
    }
    Telescope(vs, NewellY, g, |vs|);
  }

  // ---------------------------------------------------------------------
  // Translation invariance
  // ---------------------------------------------------------------------

  lemma TermTranslateX(a: Vertex, b: Vertex, d: Vec3)
    ensures NewellX(Vertices.Translate(a, d.x, d.y, d.z), Vertices.Translate(b, d.x, d.y, d.z))
         == NewellX(a, b) + (2.0 * d.z * a.y - 2.0 * d.z * b.y)
  {
    assert (a.y - b.y) * (a.z + d.z + b.z + d.z) == (a.y - b.y) * (a.z + b.z) + (2.0 * d.z * a.y - 2.0 * d.z * b.y);
  }

  lemma TermTranslateZ(a: Vertex, b: Vertex, d: Vec3)
    ensures NewellZ(Vertices.Translate(a, d.x, d.y, d.z), Vertices.Translate(b, d.x, d.y, d.z))
         == NewellZ(a, b) + (2.0 * d.y * a.x - 2.0 * d.y * b.x)
  {
    assert (a.x - b.x) * (a.y + d.y + b.y + d.y) == (a.x - b.x) * (a.y + b.y) + (2.0 * d.y * a.x - 2.0 * d.y * b.x);
  }

  /** After k edges the x accumulator of a translated ring differs from the
      original's by `2 dz (y0 - yk)`. */
  lemma {:induction false} NewellXShift(vs: seq<Vertex>, ws: seq<Vertex>, d: Vec3, k: nat)
    requires 0 < |vs| == |ws| && k <= |vs|
    requires forall i :: 0 <= i < |vs| ==> ws[i] == Vertices.Translate(vs[i], d.x, d.y, d.z)
    ensures EdgeSum(ws, NewellX, k)
         == EdgeSum(vs, NewellX, k) + (2.0 * d.z * vs[0].y - 2.0 * d.z * vs[Wrap(|vs|, k)].y)
    decreases k
  {
    if k > 0 {
      NewellXShift(vs, ws, d, k - 1);
      var i, j := k - 1, Wrap(|vs|, k);
      assert Wrap(|vs|, k - 1) == i;
      assert ws[i] == Vertices.Translate(vs[i], d.x, d.y, d.z);
      assert ws[j] == Vertices.Translate(vs[j], d.x, d.y, d.z);
      TermTranslateX(vs[i], vs[j], d);
    }
  }

  /** After k edges the z accumulator of a translated ring differs from the
      original's by `2 dy (x0 - xk)`. */
  lemma {:induction false} NewellZShift(vs: seq<Vertex>, ws: seq<Vertex>, d: Vec3, k: nat)
    requires 0 < |vs| == |ws| && k <= |vs|
    requires forall i :: 0 <= i < |vs| ==> ws[i] == Vertices.Translate(vs[i], d.x, d.y, d.z)
    ensures EdgeSum(ws, NewellZ, k)
         == EdgeSum(vs, NewellZ, k) + (2.0 * d.y * vs[0].x - 2.0 * d.y * vs[Wrap(|vs|, k)].x)
    decreases k
  {
    if k > 0 {
      NewellZShift(vs, ws, d, k - 1);
      var i, j := k - 1, Wrap(|vs|, k);
      assert Wrap(|vs|, k - 1) == i;
      assert ws[i] == Vertices.Translate(vs[i], d.x, d.y, d.z);
      assert ws[j] == Vertices.Translate(vs[j], d.x, d.y, d.z);
      TermTranslateZ(vs[i], vs[j], d);
    }
  }

  /** The x component of the raw normal is unchanged by a translation: the
      extra `2 dz (yi - yj)` terms telescope away. */
  lemma NewellXTranslate(p: Polygon, d: Vec3)
    ensures EdgeSum(Polygons.Translate(p, d.x, d.y, d.z).verts, NewellX, |p.verts|)
         == EdgeSum(p.verts, NewellX, |p.verts|)
  {
    NewellXShift(p.verts, Polygons.Translate(p, d.x, d.y, d.z).verts, d, |p.verts|);
  }

  /** The same for the z component, with `2 dy (xi - xj)`. */
  lemma NewellZTranslate(p: Polygon, d: Vec3)
    ensures EdgeSum(Polygons.Translate(p, d.x, d.y, d.z).verts, NewellZ, |p.verts|)
         == EdgeSum(p.verts, NewellZ, |p.verts|)
  {
    NewellZShift(p.verts, Polygons.Translate(p, d.x, d.y, d.z).verts, d, |p.verts|);
  }

  /** Translating a polygon leaves its raw normal, and so its whole
      `getsurfaceNormal` result and its back-face verdict, unchanged. */
  lemma NormalTranslateInvariant(p: Polygon, dx: real, dy: real, dz: real, m: Libm)
    ensures RawNormal(Polygons.Translate(p, dx, dy, dz)) == RawNormal(p)
    ensures SurfaceNormal(Polygons.Translate(p, dx, dy, dz), m) == SurfaceNormal(p, m)
    ensures ShouldRender(Polygons.Translate(p, dx, dy, dz)) == ShouldRender(p)
  {
    var q := Polygons.Translate(p, dx, dy, dz);
    NewellXTranslate(p, Vec3(dx, dy, dz));
    NewellZTranslate(p, Vec3(dx, dy, dz));
    assert RawNormal(q) == RawNormal(p);
  }

  // ---------------------------------------------------------------------
  // The z component is the shoelace area
  // ---------------------------------------------------------------------

  /** Edge (a, b)'s term in the shoelace formula. */
  function Cross(a: Vertex, b: Vertex): real { a.x * b.y - b.x * a.y }

  /** Twice the signed area of the ring projected on the x-y plane, by the
      shoelace formula: an independent measure of orientation. */
  function SignedArea2(p: Polygon): real {
    EdgeSum(p.verts, Cross, |p.verts|)
  }

  lemma NewellZSplit(a: Vertex, b: Vertex)
    ensures NewellZ(a, b) == Cross(a, b) + (a.x * a.y - b.x * b.y)
  {
  }

  /** Around a closed ring the z accumulator of the normal equals the
      shoelace sum: the extra `xi yi - xj yj` terms telescope away. */
  lemma NewellZIsShoelace(vs: seq<Vertex>)
    requires 0 < |vs|
    ensures EdgeSum(vs, NewellZ, |vs|) == EdgeSum(vs, Cross, |vs|)
  {
    var n := |vs|;
    var g := (v: Vertex) => v.x * v.y;
    var h := (a: Vertex, b: Vertex) => g(a) - g(b);
    forall i | 0 <= i < n
      ensures NewellZ(vs[i], vs[Wrap(n, i + 1)]) == Cross(vs[i], vs[Wrap(n, i + 1)]) + h(vs[i], vs[Wrap(n, i + 1)])
    {
      NewellZSplit(vs[i], vs[Wrap(n, i + 1)]);
    }
    EdgeSumSplit(vs, vs, NewellZ, Cross, h, n);
    Telescope(vs, h, g, n);
  }

  /** Edge (a, b)'s term in the shoelace formula of the y-z projection. */
  function CrossYZ(a: Vertex, b: Vertex): real { a.y * b.z - b.y * a.z }

  lemma NewellXSplit(a: Vertex, b: Vertex)
    ensures NewellX(a, b) == CrossYZ(a, b) + (a.y * a.z - b.y * b.z)
  {
  }

  /** Around a closed ring the x accumulator of the normal equals the
      shoelace sum of the y-z projection: the extra `yi zi - yj zj` terms
      telescope away. */
  lemma NewellXIsShoelace(vs: seq<Vertex>)
    requires 0 < |vs|
    ensures EdgeSum(vs, NewellX, |vs|) == EdgeSum(vs, CrossYZ, |vs|)
  {
    var n := |vs|;
    var g := (v: Vertex) => v.y * v.z;
    var h := (a: Vertex, b: Vertex) => g(a) - g(b);
    forall i | 0 <= i < n
      ensures NewellX(vs[i], vs[Wrap(n, i + 1)]) == CrossYZ(vs[i], vs[Wrap(n, i + 1)]) + h(vs[i], vs[Wrap(n, i + 1)])
    {
      NewellXSplit(vs[i], vs[Wrap(n, i + 1)]);
    }
    EdgeSumSplit(vs, vs, NewellX, CrossYZ, h, n);
    Telescope(vs, h, g, n);
  }

  /** One shoelace term under a rotation about z picks up cos^2 + sin^2. */
  lemma CrossRotZ(a: Vertex, b: Vertex, angle: real, m: Libm)
    requires UnitCircleAt(m, angle)
    ensures Cross(Vertices.RotZ(a, angle, m), Vertices.RotZ(b, angle, m)) == Cross(a, b)
  {
    var c, s := m.cos(angle), m.sin(angle);
    assert (c * a.x - s * a.y) * (c * b.y + s * b.x) - (c * b.x - s * b.y) * (c * a.y + s * a.x)
        == (c * c + s * s) * (a.x * b.y - b.x * a.y);
  }

  /** Rotating a polygon about the viewing axis keeps its signed area and
      therefore its back-face verdict. */
  lemma ShouldRenderRotZInvariant(p: Polygon, angle: real, m: Libm)
    requires UnitCircleAt(m, angle)
    ensures SignedArea2(Polygons.RotZ(p, angle, m)) == SignedArea2(p)
    ensures ShouldRender(Polygons.RotZ(p, angle, m)) == ShouldRender(p)
  {
    var q := Polygons.RotZ(p, angle, m);
    var vs, ws, n := p.verts, q.verts, |p.verts|;
    var zero := (a: Vertex, b: Vertex) => 0.0;
    forall i | 0 <= i < n
      ensures Cross(ws[i], ws[Wrap(n, i + 1)]) == Cross(vs[i], vs[Wrap(n, i + 1)]) + zero(vs[i], vs[Wrap(n, i + 1)])
    {
      CrossRotZ(vs[i], vs[Wrap(n, i + 1)], angle, m);
    }
    EdgeSumSplit(vs, ws, Cross, Cross, zero, n);
    Telescope(vs, zero, (v: Vertex) => 0.0, n);
  }

  // ---------------------------------------------------------------------
  // The unit normal
  // ---------------------------------------------------------------------

  lemma ZeroFactor(a: real, g: real)
    requires a * g == 0.0 && g != 0.0
    ensures a == 0.0
  {
  }

  lemma ZeroFactorSq(a: real, g: real)
    requires a * (g * g) == 0.0 && g != 0.0
    ensures a == 0.0
  {
    assert (a * g) * g == 0.0;
    ZeroFactor(a * g, g);
    ZeroFactor(a, g);
  }

  lemma SqScale(u: real, g: real, r: real)
    requires u * g == r
    ensures r * r == (u * u) * (g * g)
  {
  }

  /** A vector whose g-multiple has squared length g*g has length 1. */
  lemma UnitScale(ux: real, uy: real, uz: real, g: real, rx: real, ry: real, rz: real)
    requires g != 0.0
    requires ux * g == rx && uy * g == ry && uz * g == rz
    requires g * g == rx * rx + ry * ry + rz * rz
    ensures ux * ux + uy * uy + uz * uz == 1.0
  {
    SqScale(ux, g, rx);
    SqScale(uy, g, ry);
    SqScale(uz, g, rz);
    assert (ux * ux + uy * uy + uz * uz - 1.0) * (g * g) == 0.0;
    ZeroFactorSq(ux * ux + uy * uy + uz * uz - 1.0, g);
  }

  /** A lawful square root squares back to the squared length. */
  lemma LengthSquared(m: Libm, v: Vec3)
    requires LawfulLength(m, v)
    ensures Length(m, v) * Length(m, v) == v.x * v.x + v.y * v.y + v.z * v.z
  {
  }

  /** With a lawful square root the magnitude of the normal is its Euclidean
      length: non-negative, and squaring to the sum of squared components. */
  lemma NormalMagnitude(p: Polygon, m: Libm)
    requires LawfulLength(m, RawNormal(p))
    ensures SurfaceNormal(p, m).magnitude >= 0.0
    ensures SurfaceNormal(p, m).magnitude * SurfaceNormal(p, m).magnitude
            == RawNormal(p).x * RawNormal(p).x + RawNormal(p).y * RawNormal(p).y + RawNormal(p).z * RawNormal(p).z
  {
    LengthSquared(m, RawNormal(p));
  }

  /** A ring lying in the plane z = 0 has no y-z area: every partial y-z
      shoelace sum is 0, so its normal has no x component. */
  lemma {:induction false} FlatRingYZ(vs: seq<Vertex>, k: nat)
    requires 0 < |vs| && k <= |vs|
    requires forall i :: 0 <= i < |vs| ==> vs[i].z == 0.0
    ensures EdgeSum(vs, CrossYZ, k) == 0.0
    decreases k
  {
    if k > 0 {
      FlatRingYZ(vs, k - 1);
      var a, b := vs[k - 1], vs[Wrap(|vs|, k)];
      assert a.z == 0.0 && b.z == 0.0;
      assert CrossYZ(a, b) == a.y * 0.0 - b.y * 0.0;
    }
  }

  /** A polygon lying in the plane z = 0 has the raw normal (0, 0, twice its
      signed area): it faces straight along the z axis. */
  lemma FlatNormal(p: Polygon)
    requires 0 < |p.verts|
    requires forall i :: 0 <= i < |p.verts| ==> p.verts[i].z == 0.0
    ensures RawNormal(p) == Vec3(0.0, 0.0, SignedArea2(p))
  {
    FlatRingYZ(p.verts, |p.verts|);
  }

  /** The square's raw normal is (0, 0, 8). */
  lemma SquareRawNormal(p: Polygon)
    requires p.verts == Square()
    ensures RawNormal(p) == Vec3(0.0, 0.0, 8.0)
  {
    SquareFlat();
    FlatNormal(p);
    SquareCulled(p);
  }

  /** A face whose raw normal points d > 0 along the z axis, and whose length
      the square root reports as d, has unit normal (0, 0, 1). */
  lemma NormalAlongZ(p: Polygon, m: Libm, d: real)
    requires RawNormal(p) == Vec3(0.0, 0.0, d) && d > 0.0
    requires Length(m, Vec3(0.0, 0.0, d)) == d
    ensures SurfaceNormal(p, m) == Normal(Vec3(0.0, 0.0, d), d, Some(Vec3(0.0, 0.0, 1.0)))
  {
    assert d / d == 1.0;
  }

  /** When the square root of 64 is 8, (0, 0, 8) has length 8. */
  lemma LengthOfEight(m: Libm)
    requires m.sqrt(64.0) == 8.0
    ensures Length(m, Vec3(0.0, 0.0, 8.0)) == 8.0
  {
    assert Length(m, Vec3(0.0, 0.0, 8.0)) == m.sqrt(64.0);
  }

  /** When the square root of 64 is 8, the square's normal has magnitude 8 and
      unit normal (0, 0, 1). */
  lemma SquareNormal(p: Polygon, m: Libm)
    requires p.verts == Square()
    requires m.sqrt(64.0) == 8.0
    ensures SurfaceNormal(p, m) == Normal(Vec3(0.0, 0.0, 8.0), 8.0, Some(Vec3(0.0, 0.0, 1.0)))
  {
    SquareRawNormal(p);
    LengthOfEight(m);
    NormalAlongZ(p, m, 8.0);
  }

  /** A vector whose product with a lawful length is v has length 1. */
  lemma UnitOfLawful(m: Libm, v: Vec3, u: Vec3, g: real)
    requires LawfulLength(m, v) && g == Length(m, v) && g != 0.0
    requires u.x * g == v.x && u.y * g == v.y && u.z * g == v.z
    ensures IsUnit(u)
  {
    LengthSquared(m, v);
    UnitScale(u.x, u.y, u.z, g, v.x, v.y, v.z);
  }

  /** Dividing the raw normal by its magnitude gives a unit vector when
      `Math.sqrt` returns the root of the squared length. */
  lemma UnitNormalIsUnit(p: Polygon, m: Libm)
    requires LawfulLength(m, RawNormal(p))
    requires SurfaceNormal(p, m).unit.Some?
    ensures IsUnit(SurfaceNormal(p, m).unit.value)
  {
    var n := SurfaceNormal(p, m);
    assert n.raw == RawNormal(p) && n.magnitude == Length(m, n.raw);
    UnitOfLawful(m, n.raw, n.unit.value, n.magnitude);
  }

  // ---------------------------------------------------------------------
  // Orientation of the example square
  // ---------------------------------------------------------------------

  /** The shoelace sum of a four-vertex ring, edge by edge. */
  lemma {:induction false} EdgeSumFour(vs: seq<Vertex>, t: (Vertex, Vertex) -> real)
    requires |vs| == 4
    ensures EdgeSum(vs, t, 4) == t(vs[0], vs[1]) + t(vs[1], vs[2]) + t(vs[2], vs[3]) + t(vs[3], vs[0])
  {
    assert Wrap(4, 1) == 1 && Wrap(4, 2) == 2 && Wrap(4, 3) == 3 && Wrap(4, 4) == 0;
    assert EdgeSum(vs, t, 1) == t(vs[0], vs[1]);
    assert EdgeSum(vs, t, 2) == t(vs[0], vs[1]) + t(vs[1], vs[2]);
    assert EdgeSum(vs, t, 3) == t(vs[0], vs[1]) + t(vs[1], vs[2]) + t(vs[2], vs[3]);
  }

  /** The square (0,0), (2,0), (2,2), (0,2) runs counter-clockwise in a y-up
      frame: its normal points toward +z and it is culled. */
  lemma SquareCulled(p: Polygon)
    requires p.verts == Square()
    ensures RawNormal(p).z == 8.0 && !ShouldRender(p)
  {
    var vs := p.verts;
    assert vs[0].x == 0.0 && vs[0].y == 0.0 && vs[1].x == 2.0 && vs[1].y == 0.0;
    assert vs[2].x == 2.0 && vs[2].y == 2.0 && vs[3].x == 0.0 && vs[3].y == 2.0;
    EdgeSumFour(vs, Cross);
    assert Cross(vs[0], vs[1]) == 0.0;
    assert Cross(vs[1], vs[2]) == 4.0;
    assert Cross(vs[2], vs[3]) == 4.0;
    assert Cross(vs[3], vs[0]) == 0.0;
    assert SignedArea2(p) == 8.0;
  }

  /** The same square listed in the reverse order is drawn. */
  lemma ReversedSquareDrawn(q: Polygon)
    requires q.verts == [Vertex(0.0, 2.0, 0.0, Unstyled), Vertex(2.0, 2.0, 0.0, Unstyled),
                         Vertex(2.0, 0.0, 0.0, Unstyled), Vertex(0.0, 0.0, 0.0, Unstyled)]
    ensures RawNormal(q).z == -8.0 && ShouldRender(q)
  {
    var ws := q.verts;
    assert Cross(ws[0], ws[1]) == -4.0;
    assert Cross(ws[1], ws[2]) == -4.0;
    assert Cross(ws[2], ws[3]) == 0.0;
    assert Cross(ws[3], ws[0]) == 0.0;
    EdgeSumFour(ws, Cross);
    assert SignedArea2(q) == -8.0;
  }
}

=== FILE: vertex.dfy ===
/** Points in camera space and the per-point transforms every other primitive
    delegates to. Each transform in the library mutates `x`, `y`, `z` in place
    and returns the point; here it returns the new point instead. */
module Vertices {
  import opened JsMath
  import Outcomes

  /** A plain 3-vector, used for centroids, normals and light directions. */
  datatype Vec3 = Vec3(x: real, y: real, z: real) {
    function Plus(d: Vec3): Vec3 { Vec3(x + d.x, y + d.y, z + d.z) }
    function Minus(d: Vec3): Vec3 { Vec3(x - d.x, y - d.y, z - d.z) }
    function Dot(d: Vec3): real { x * d.x + y * d.y + z * d.z }
    function NormSq(): real { Dot(this) }
  }

  /** Render attributes of a point. Points built by a Line or a Polygon get
      none: those constructors copy only the coordinates. */
  datatype Look =
    | Unstyled
    | Styled(radius: real, strokeColor: string, style: int, fillColor: string, name: string)

  datatype Vertex = Vertex(x: real, y: real, z: real, look: Look) {
    function Pos(): Vec3 { Vec3(x, y, z) }
  }

  /** A fresh point with only coordinates, as `new Vertex(a.x, a.y, a.z)`. */
  function CopyCoords(v: Vertex): (r: Vertex)
    ensures r.Pos() == v.Pos() && r.look == Unstyled
  {
    Vertex(v.x, v.y, v.z, Unstyled)
  }

  /** `doOrtho`: x and y are divided by the cube's half-extent; z is left as is. */
  function Ortho(v: Vertex, cubesize: real): (r: Vertex)
    requires cubesize != 0.0
    ensures r.x * cubesize == v.x && r.y * cubesize == v.y
    ensures r.z == v.z && r.look == v.look
  {
    v.(x := v.x / cubesize, y := v.y / cubesize)
  }

  /** The factor `focalLen / (focalLen + z) / cubesize` of `doPerspective`. */
  function PerspectiveScale(z: real, cubesize: real, focalLen: real): real
    requires cubesize != 0.0 && focalLen + z != 0.0
  {
    focalLen / (focalLen + z) / cubesize
  }

  /** `doPerspective`: every coordinate is scaled by the depth-dependent factor
      and re-centred on `cubesize`. */
  function Perspective(v: Vertex, cubesize: real, focalLen: real): (r: Vertex)
    requires cubesize != 0.0 && focalLen + v.z != 0.0
    ensures (r.x - cubesize) * (focalLen + v.z) * cubesize == v.x * focalLen
    ensures (r.y - cubesize) * (focalLen + v.z) * cubesize == v.y * focalLen
    ensures (r.z - cubesize) * (focalLen + v.z) * cubesize == v.z * focalLen
    ensures r.look == v.look
  {
    var k := PerspectiveScale(v.z, cubesize, focalLen);
    v.(x := cubesize + v.x * k, y := cubesize + v.y * k, z := cubesize + v.z * k)
  }

  /** `scale`: uniform multiplication of all three coordinates. */
  function Scale(v: Vertex, factor: real): (r: Vertex)
    ensures r.look == v.look
    ensures r.Pos().NormSq() == factor * factor * v.Pos().NormSq()
    ensures r.x * v.y == r.y * v.x && r.y * v.z == r.z * v.y && r.x * v.z == r.z * v.x
    ensures r.Pos().Dot(v.Pos()) == factor * v.Pos().NormSq()
  {
    v.(x := v.x * factor, y := v.y * factor, z := v.z * factor)
  }

  /** `rotX`: rotation in the y-z plane by the angle whose cosine and sine
      the library obtains from `Math.cos` and `Math.sin`. */
  function RotX(v: Vertex, angle: real, m: Libm): (r: Vertex)
    ensures r.x == v.x && r.look == v.look
    ensures r.y * v.y + r.z * v.z == m.cos(angle) * (v.y * v.y + v.z * v.z)
    ensures v.y * r.z - v.z * r.y == m.sin(angle) * (v.y * v.y + v.z * v.z)
  {
    var c := m.cos(angle);
    var s := m.sin(angle);
    v.(y := c * v.y - s * v.z, z := c * v.z + s * v.y)
  }

  /** `rotY`: rotation in the x-z plane. */
  function RotY(v: Vertex, angle: real, m: Libm): (r: Vertex)
    ensures r.y == v.y && r.look == v.look
    ensures r.x * v.x + r.z * v.z == m.cos(angle) * (v.x * v.x + v.z * v.z)
    ensures v.x * r.z - v.z * r.x == m.sin(angle) * (v.x * v.x + v.z * v.z)
  {
    var c := m.cos(angle);
    var s := m.sin(angle);
    v.(x := c * v.x - s * v.z, z := c * v.z + s * v.x)
  }

  /** `rotZ` as evidently intended: rotation in the x-y plane. The library's
      own `rotZ` throws instead; see `RotZAsWritten`. */
  function RotZ(v: Vertex, angle: real, m: Libm): (r: Vertex)
    ensures r.z == v.z && r.look == v.look
    ensures r.x * v.x + r.y * v.y == m.cos(angle) * (v.x * v.x + v.y * v.y)
    ensures v.x * r.y - v.y * r.x == m.sin(angle) * (v.x * v.x + v.y * v.y)
  {
    var c := m.cos(angle);
    var s := m.sin(angle);
    v.(x := c * v.x - s * v.y, y := c * v.y + s * v.x)
  }

  /** `rotZ` as written. Its body assigns `x = ...` and `y = ...` without
      declaring them, inside a `"use strict"` function, so the first
      assignment raises a ReferenceError and the point is never changed. */
  function RotZAsWritten(v: Vertex, angle: real, m: Libm): (r: Outcomes.Result<Vertex>)
    ensures r.Err? && r.fault == Outcomes.UndeclaredVariable
  {
    Outcomes.Err(Outcomes.UndeclaredVariable)
  }

  /** `translate(x, y, z)`: per-axis addition. */
  function Translate(v: Vertex, dx: real, dy: real, dz: real): (r: Vertex)
    ensures r.Pos() == v.Pos().Plus(Vec3(dx, dy, dz)) && r.look == v.look
  {
    v.(x := v.x + dx, y := v.y + dy, z := v.z + dz)
  }

  /** `getCentroidZ` of a single point: its depth. */
  function CentroidZ(v: Vertex): (r: real)
    ensures r == v.Pos().z
  {
    v.z
  }

  // ---------------------------------------------------------------------
  // Properties of the point transforms
  // ---------------------------------------------------------------------

  /** Translating back by the negated offset restores the point exactly. */
  lemma TranslateInverse(v: Vertex, dx: real, dy: real, dz: real)
    ensures Translate(Translate(v, dx, dy, dz), -dx, -dy, -dz) == v
  {
  }

  /** Two translations compose into one by the summed offset. */
  lemma TranslateCompose(v: Vertex, a: Vec3, b: Vec3)
    ensures Translate(Translate(v, a.x, a.y, a.z), b.x, b.y, b.z)
         == Translate(v, a.x + b.x, a.y + b.y, a.z + b.z)
  {
  }

  /** Scaling by f and then by 1/f restores the point. */
  lemma ScaleInverse(v: Vertex, f: real)
    requires f != 0.0
    ensures Scale(Scale(v, f), 1.0 / f) == v
  {
    assert v.x * f * (1.0 / f) == v.x;
    assert v.y * f * (1.0 / f) == v.y;
    assert v.z * f * (1.0 / f) == v.z;
  }

  /** A rotation about x keeps y*y + z*z when cos^2 + sin^2 = 1. */
  lemma RotXPreservesRadius(v: Vertex, angle: real, m: Libm)
    requires UnitCircleAt(m, angle)
    ensures var r := RotX(v, angle, m); r.y * r.y + r.z * r.z == v.y * v.y + v.z * v.z
  {
    var c, s := m.cos(angle), m.sin(angle);
    calc {
      (c * v.y - s * v.z) * (c * v.y - s * v.z) + (c * v.z + s * v.y) * (c * v.z + s * v.y);
      (c * c + s * s) * (v.y * v.y) + (c * c + s * s) * (v.z * v.z);
    }
  }

  /** A rotation about y keeps x*x + z*z when cos^2 + sin^2 = 1. */
  lemma RotYPreservesRadius(v: Vertex, angle: real, m: Libm)
    requires UnitCircleAt(m, angle)
    ensures var r := RotY(v, angle, m); r.x * r.x + r.z * r.z == v.x * v.x + v.z * v.z
  {
    var c, s := m.cos(angle), m.sin(angle);
    calc {
      (c * v.x - s * v.z) * (c * v.x - s * v.z) + (c * v.z + s * v.x) * (c * v.z + s * v.x);
      (c * c + s * s) * (v.x * v.x) + (c * c + s * s) * (v.z * v.z);
    }
  }

  /** A rotation about z keeps x*x + y*y when cos^2 + sin^2 = 1. */
  lemma RotZPreservesRadius(v: Vertex, angle: real, m: Libm)
    requires UnitCircleAt(m, angle)
    ensures var r := RotZ(v, angle, m); r.x * r.x + r.y * r.y == v.x * v.x + v.y * v.y
  {
    var c, s := m.cos(angle), m.sin(angle);
    calc {
      (c * v.x - s * v.y) * (c * v.x - s * v.y) + (c * v.y + s * v.x) * (c * v.y + s * v.x);
      (c * c + s * s) * (v.x * v.x) + (c * c + s * s) * (v.y * v.y);
    }
  }

  /** Rotating about x by an angle and then by its negation restores the point. */
  lemma RotXInverse(v: Vertex, angle: real, m: Libm)
    requires UnitCircleAt(m, angle) && ParityAt(m, angle)
    ensures RotX(RotX(v, angle, m), -angle, m) == v
  {
    var c, s := m.cos(angle), m.sin(angle);
    assert c * (c * v.y - s * v.z) - (-s) * (c * v.z + s * v.y) == (c * c + s * s) * v.y;
    assert c * (c * v.z + s * v.y) + (-s) * (c * v.y - s * v.z) == (c * c + s * s) * v.z;
  }

  /** Rotating about y by an angle and then by its negation restores the point. */
  lemma RotYInverse(v: Vertex, angle: real, m: Libm)
    requires UnitCircleAt(m, angle) && ParityAt(m, angle)
    ensures RotY(RotY(v, angle, m), -angle, m) == v
  {
    var c, s := m.cos(angle), m.sin(angle);
    assert c * (c * v.x - s * v.z) - (-s) * (c * v.z + s * v.x) == (c * c + s * s) * v.x;
    assert c * (c * v.z + s * v.x) + (-s) * (c * v.x - s * v.z) == (c * c + s * s) * v.z;
  }

  /** Rotating about z by an angle and then by its negation restores the point. */
  lemma RotZInverse(v: Vertex, angle: real, m: Libm)
    requires UnitCircleAt(m, angle) && ParityAt(m, angle)
    ensures RotZ(RotZ(v, angle, m), -angle, m) == v
  {
    var c, s := m.cos(angle), m.sin(angle);
    assert c * (c * v.x - s * v.y) - (-s) * (c * v.y + s * v.x) == (c * c + s * s) * v.x;
    assert c * (c * v.y + s * v.x) + (-s) * (c * v.x - s * v.y) == (c * c + s * s) * v.y;
  }

  /** The library's `rotZ` never yields a point, while the intended rotation
      by a quarter turn carries (1, 0, z) to (0, 1, z). */
  lemma RotZAsWrittenDiffers(z: real, look: Look, angle: real, m: Libm)
    requires m.cos(angle) == 0.0 && m.sin(angle) == 1.0
    ensures RotZAsWritten(Vertex(1.0, 0.0, z, look), angle, m).Err?
    ensures RotZ(Vertex(1.0, 0.0, z, look), angle, m) == Vertex(0.0, 1.0, z, look)
  {
  }

  /** Orthographic projection agrees with scaling x and y by 1/cubesize. */
  lemma OrthoIsPlanarScale(v: Vertex, cubesize: real)
    requires cubesize != 0.0
    ensures Ortho(v, cubesize).x == Scale(v, 1.0 / cubesize).x
    ensures Ortho(v, cubesize).y == Scale(v, 1.0 / cubesize).y
    ensures Ortho(v, cubesize).z == v.z
  {
  }

  /** Products of positive numbers are positive. */
  lemma PosMul(a: real, b: real)
    requires a > 0.0 && b > 0.0
    ensures a * b > 0.0
  {
  }

  /** A number whose product with a positive number is positive is positive. */
  lemma PosFactor(e: real, d: real, n: real)
    requires e * d == n && d > 0.0 && n > 0.0
    ensures e > 0.0
  {
  }

  /** Dividing by a positive number keeps a strict order. */
  lemma DivLess(p: real, q: real, c: real)
    requires p < q && c > 0.0
    ensures p / c < q / c
  {
    DivDiff(p, q, c);
    PosFactor(q / c - p / c, c, q - p);
  }

  /** A difference of quotients times the divisor. */
  lemma DivDiff(p: real, q: real, c: real)
    requires c != 0.0
    ensures (q / c - p / c) * c == q - p
  {
    var a, b := p / c, q / c;
    assert a * c == p;
    assert b * c == q;
    assert (b - a) * c == b * c - a * c;
  }

  /** Multiplying into a quotient. */
  lemma MulQuotient(x: real, y: real, d: real)
    requires d != 0.0
    ensures x * (y / d) == (x * y) / d
  {
    var q := y / d;
    assert y == q * d;
    assert (x * q) * d == x * y;
  }

  /** `z * f / (f + z)` is increasing in z while `f > 0` and `f + z > 0`. */
  lemma DepthMonotone(z1: real, z2: real, f: real)
    requires f > 0.0 && f + z1 > 0.0 && f + z2 > 0.0 && z1 < z2
    ensures z1 * f / (f + z1) < z2 * f / (f + z2)
  {
    var d1, d2 := f + z1, f + z2;
    var x1, x2 := z1 * f / d1, z2 * f / d2;
    assert x1 * d1 == z1 * f;
    assert x2 * d2 == z2 * f;
    var dd := d1 * d2;
    PosMul(d1, d2);
    var dz := z2 - z1;
    var fd := f * dz;
    PosMul(f, dz);
    var n := f * fd;
    PosMul(f, fd);
    assert (x2 - x1) * dd == n by {
      assert (x2 - x1) * dd == (x2 * d2) * d1 - (x1 * d1) * d2;
    }
    PosFactor(x2 - x1, dd, n);
  }

  /** The depth offset `z * scale` written as one quotient chain. */
  lemma ScaledDepth(z: real, f: real, c: real)
    requires c != 0.0 && f + z != 0.0
    ensures z * PerspectiveScale(z, c, f) == (z * f / (f + z)) / c
  {
    var d := f + z;
    var t := f / d;
    MulQuotient(z, f, d);
    assert z * t == (z * f) / d;
    MulQuotient(z, t, c);
    assert z * (t / c) == (z * t) / c;
  }

  /** The depth offset `z * scale` is increasing in z in front of the viewer. */
  lemma ScaledDepthMonotone(z1: real, z2: real, f: real, c: real)
    requires c > 0.0 && f > 0.0 && f + z1 > 0.0 && f + z2 > 0.0 && z1 < z2
    ensures z1 * PerspectiveScale(z1, c, f) < z2 * PerspectiveScale(z2, c, f)
  {
    var q1, q2 := z1 * f / (f + z1), z2 * f / (f + z2);
    DepthMonotone(z1, z2, f);
    DivLess(q1, q2, c);
    ScaledDepth(z1, f, c);
    ScaledDepth(z2, f, c);
  }

  /** With the viewer in front of both points (positive focal length and
      `focalLen + z > 0`) and a positive cube, perspective keeps depth order. */
  lemma PerspectiveKeepsDepthOrder(a: Vertex, b: Vertex, cubesize: real, focalLen: real)
    requires cubesize > 0.0 && focalLen > 0.0
    requires focalLen + a.z > 0.0 && focalLen + b.z > 0.0
    requires a.z < b.z
    ensures Perspective(a, cubesize, focalLen).z < Perspective(b, cubesize, focalLen).z
  {
    ScaledDepthMonotone(a.z, b.z, focalLen, cubesize);
    assert Perspective(a, cubesize, focalLen).z == cubesize + a.z * PerspectiveScale(a.z, cubesize, focalLen);
    assert Perspective(b, cubesize, focalLen).z == cubesize + b.z * PerspectiveScale(b.z, cubesize, focalLen);
  }
}
